=== FILE: README.md ===
# Account and session state machine of the ImAround backend, in Dafny

This project models the identity and session core of the ImAround backend.
That core is the `AuthController` request handlers that create and change
accounts, the Mongoose `User` schema they write through, and the
`authMiddleware` bearer-token gate. The model proves properties of them.

Every handler is a pure function from the account collection and one
request to a `Step`. A `Step` holds the response and the collection after the
request. The collection is a `map<string, User>` keyed by `_id`. Calls the
handlers make into code that is not part of this model are fields of an
`Env` value, one per request:

- `bcrypt.hash` and `bcrypt.compare`;
- `jwt.sign`;
- the Google OAuth client's `verifyIdToken`;
- the `crypto.randomBytes` draws.

The middleware takes `jwt.verify` as a parameter.

Modules:

- `Js`: undefined/null as `Option`, and JavaScript truthiness.
- `Strings`: the string built-ins used here, each as a function with its laws:
  - `startsWith`, `indexOf`/`includes`;
  - `split` with a string separator, `join`, `reverse`;
  - the `/[\s\r\n]+/g` whitespace removal;
  - the UTF-16 `length`.
- `Hex`: `Buffer.toString('hex')` and its inverse.
- `UserModel`: covers the following.
  - The `User` document, its schema validation and its defaults.
  - The unique `email` index.
  - `findOne({ email })`.
  - What `save()` does to the collection.
- `IdGenerator`: `generateUniqueCustomId`.
- `AuthController`: the handlers `register`, `googleAuth`,
  `completeGoogleProfile`, `login`, `deleteUser` and `updateAbout`, plus the
  birth-date rewrite.
- `PhotoCheck`: `isValidBase64` and the cleanup in `analyzeProfilePhoto`.
- `AuthMiddleware`: `authMiddleware`.
- `SessionProperties`: properties that relate several handlers or several
  requests. `Run` folds a sequence of requests over the collection.

The collection must satisfy the unique email index, because handlers look
accounts up by email. MongoDB enforces that index on every write, and the
model proves that every modelled handler keeps it (`Run`). So `GoogleAuth`,
`Login` and `FindByEmail` take `UniqueEmails(store)` as a precondition.

Behaviours of the code that the model keeps as written:

- `register` answers 400 both for a missing password and for a taken email.
- `googleAuth` looks the account up by the email the client sent. The email in
  the verified Google claims is not used for the lookup
  (`GoogleAuthTrustsClientEmail`).
- `completeGoogleProfile` merges with `||`. An empty string sent for a field
  keeps the stored value.
- `completeGoogleProfile` always answers `needsCompletion: false`, even when
  the stored profile is still incomplete (`CompletionFlagCanBeStale`).
- An id is 4 random bytes, written as 8 hex digits.
- `login` without a password answers 500 for a known email, because
  `bcrypt.compare` rejects the missing argument. For an unknown email it
  answers 401. The response therefore reveals whether an account exists
  (`LoginWithoutPasswordRevealsAccount`).
- `completeGoogleProfile` writes the merged profile with `findByIdAndUpdate`
  before it saves the new refresh token. When that save fails, the answer is
  500 but the merged profile stays stored (`CompleteGoogleProfile`).

## Model

| member | source | states |
|---|---|---|
| Hex.ToHex | src/controllers/AuthController.ts:21 | the hex form of n bytes has 2n characters, each a lower-case hex digit |
| Hex.FromHexToHex | src/controllers/AuthController.ts:21 | decoding the hex form of any byte string gives that byte string back |
| Hex.ToHexInjective | src/controllers/AuthController.ts:21 | two draws with the same id are the same four bytes |
| IdGenerator.GenerateUniqueCustomId | src/controllers/AuthController.ts:16-26 | the result is the hex form of the first draw that no document has as `_id`; every earlier draw collided; there is no result only when every draw collides; the id is eight lower-case hex digits and not taken |
| IdGenerator.DrawUntilFresh | src/controllers/AuthController.ts:20-25 | the do/while loop returns a free eight-digit id, or none only when every draw is taken, and it agrees with the functional definition |
| UserModel.Valid | src/models/userModel.ts:24-35 | a valid record has a non-empty `_id`, first name, last name and email; a record that is not a Google account is valid exactly when those four and its password are non-empty; for a Google account the password plays no part |
| UserModel.NeedsCompletion | src/controllers/AuthController.ts:174 | a record needs completion when the birth date is missing or gender or gender interest is unset or empty, and does not when all three are present and non-empty |
| UserModel.NewDocument | src/models/userModel.ts:44-53 | a new document starts with `hobbies` and `dislike` empty, `fcmToken` and `refreshToken` unset, `isGoogleUser` false, and it fails validation until its required paths are filled |
| UserModel.FindByEmail | src/controllers/AuthController.ts:304 | under the unique index, the lookup finds nothing exactly when no document has the email, and otherwise finds a stored document with that email |
| UserModel.Save | src/models/userModel.ts:24-35 | `save()` succeeds exactly when the document validates, a new document's `_id` is unused, and no other document holds its email; success writes exactly that document under its id; a document that fails validation is refused with the validation error before the index is consulted |
| UserModel.SavePreservesValidity | src/models/userModel.ts:24-35 | a successful save keeps ids as keys, emails unique, and every record with non-empty `_id`, names and email and a password unless it is a Google account |
| UserModel.SaveThenRefreshSucceeds | src/controllers/AuthController.ts:167-189 | once a document is saved, saving it again with only a new refresh token is never refused |
| UserModel.ResaveSucceeds | src/models/userModel.ts:24-35 | saving a stored valid record again is never refused when the email is unchanged |
| AuthController.RegisteredDocument | src/controllers/AuthController.ts:65-78 | the built document carries the request names, avatar and email, the digest and the rewritten birth date; a truthy `about`/`occupation`/`gender`/`genderInterest` is kept and a falsy `about`/`occupation`/`gender`/`genderInterest` becomes "" and missing `hobbies` becomes []; it passes validation exactly when the id, names, email and digest are non-empty |
| AuthController.Register | src/controllers/AuthController.ts:33-100 | a falsy password gives 400 and a taken email gives 400, in that order; every failure leaves the collection unchanged; success happens exactly when the password is truthy, the email is free, a free id is drawn, a birth date is sent and the document validates; a success adds exactly one record under a fresh id and keeps all others; the token is the 1h token for the new id |
| AuthController.IssueTokens | src/controllers/AuthController.ts:183-189 | the issued refresh token is the one stored in the record's single slot; the access and refresh tokens are the 1h and 7d tokens for the record's id; tokens are issued exactly when the save of the record with the new token succeeds; a failed save gives 500 and changes nothing |
| AuthController.RewriteBirthDate | src/controllers/AuthController.ts:72 | when the input has no `-`, splitting the rewritten date on `-` gives the `/`-separated pieces of the input in reverse order; an input without `/` is returned unchanged |
| AuthController.GoogleDocument | src/controllers/AuthController.ts:147-165 | the new Google record carries the client email and names, the client avatar or else the Google picture or else "", the Google flag, an empty password, gender, gender interest, about and occupation, no birth date and empty lists; it validates exactly when the id, email and names are non-empty, and it always needs completion |
| AuthController.SignInNewUser | src/controllers/AuthController.ts:140-168 | for an unknown email, a success creates exactly one record under a fresh eight-digit id, the Google document with the returned refresh token, and reports a new user needing completion; when the client email is unused, the sign-in succeeds exactly when a free id is drawn and both names are sent; every other outcome leaves the collection unchanged |
| AuthController.TokensAfterInsert | src/controllers/AuthController.ts:167-189 | once the new Google document is inserted, issuing tokens always succeeds and the collection holds just that document added, with the returned refresh token |
| AuthController.SignInExistingUser | src/controllers/AuthController.ts:169-189 | for a known account, a success changes only the Google flag (set) and the refresh token of that record and reports `needsCompletion` from the stored record; every other outcome leaves the collection unchanged |
| AuthController.GoogleAuth | src/controllers/AuthController.ts:103-215 | a missing `idToken` or email gives 400 and a failed verification gives 401; every outcome other than success, including a 500 and a draw that has not finished, leaves the collection unchanged; success marks the account as a Google account and stores the returned refresh token; `isNewUser` holds exactly when the client email was unknown; a new account gets a fresh id, an empty password, gender and gender interest, no birth date, and needs completion; a known account changes only in the flag and token, and `needsCompletion` is the completeness test of the stored record |
| AuthController.MergeProfile | src/controllers/AuthController.ts:248-259 | each of birthDate, gender and genderInterest takes the request value if it is truthy and otherwise keeps the stored one; `about` and `occupation` take the request value if truthy, else the stored value if truthy, else ""; sent `hobbies` replace the stored list; no other path changes |
| AuthController.CompleteGoogleProfile | src/controllers/AuthController.ts:217-298 | an empty id gives 400 and an unknown id gives 404, with no change; success stores the merged profile with the returned refresh token and reports `isNewUser` and `needsCompletion` both false; the 500 answer for a failed token save leaves the merged profile stored, because `findByIdAndUpdate` has already written it |
| AuthController.Login | src/controllers/AuthController.ts:300-333 | an unknown email gives 401 "Invalid email or password" with no change; success requires a password the digest matches, overwrites only the refresh-token slot with the returned token, and returns the 1h and 7d tokens; every failure leaves the collection unchanged |
| AuthController.DeleteUser | src/controllers/AuthController.ts:542-560 | the id is absent afterwards and every other record is untouched; the answer is 404 exactly when the id was unknown |
| AuthController.UpdateAbout | src/controllers/AuthController.ts:353-380 | an unknown id gives 404 with no change; otherwise only `about` of that record is replaced |
| Strings.IndexOfFrom | src/controllers/AuthController.ts:526 | the result is the first occurrence at or after the start, or -1 when there is none |
| Strings.ContainsIff | src/controllers/AuthController.ts:526 | `includes` holds exactly when the separator occurs at some position |
| Strings.Split | src/controllers/AuthController.ts:72 | splitting yields at least one piece; no piece contains the separator; every character of a piece comes from the input |
| Strings.JoinSplit | src/controllers/AuthController.ts:458 | joining the pieces of a split with the same separator restores the input |
| Strings.SplitJoin | src/controllers/AuthController.ts:72 | splitting a join of separator-free pieces on a one-character separator gives the pieces back |
| Strings.SplitWithoutSeparator | src/controllers/AuthController.ts:72 | a string without the separator character splits into the one-element array of itself |
| Strings.SplitJoinReversed | src/controllers/AuthController.ts:72 | joining the reversed pieces on a character absent from the input, then splitting on it, gives the reversed pieces back |
| Strings.ContainsIffSplitsInTwo | src/controllers/AuthController.ts:458-459 | a string includes the separator exactly when its split has at least two pieces |
| Strings.Reverse | src/controllers/AuthController.ts:72 | the reversed array has the same length, and element i is element n-1-i of the input |
| Strings.StripWhitespace | src/controllers/AuthController.ts:462 | the cleaned string has no whitespace, uses only characters of the input, and a whitespace-free input is returned unchanged |
| Strings.StripAppend | src/controllers/AuthController.ts:466 | cleaning distributes over concatenation |
| Strings.Utf16Length | src/controllers/AuthController.ts:532 | the JavaScript length lies between the number of code points and twice that; a single code point at or above U+10000 counts 2 and any other counts 1 |
| Strings.Utf16LengthAppend | src/controllers/AuthController.ts:532 | the JavaScript length of a concatenation is the sum of the lengths |
| PhotoCheck.IsValidBase64 | src/controllers/AuthController.ts:520-540 | a valid string is never empty; a data URI is valid exactly when splitting on `base64,` gives at least two pieces; a plain string is valid exactly when fewer than one UTF-16 unit in ten lies outside `[A-Za-z0-9+/=]`, so a plain string of alphabet characters only is valid exactly when it is non-empty |
| PhotoCheck.CleanBase64 | src/controllers/AuthController.ts:455-467 | for a data URI with `base64,` the payload is the piece after the first marker with whitespace removed; for any other string not starting with `data:image` it is the whole input with whitespace removed; a data URI without the marker is returned unchanged; the payload contains only characters of the input and, except in that last case, no whitespace |
| PhotoCheck.StrippedCharsFrom | src/controllers/AuthController.ts:462-466 | whitespace removal leaves only characters of the input |
| PhotoCheck.CountBase64Chars | src/controllers/AuthController.ts:531 | the count of alphabet characters is at most the length, with equality exactly when every character is in `[A-Za-z0-9+/=]` |
| PhotoCheck.CountAppend | src/controllers/AuthController.ts:531 | the number of alphabet characters in a concatenation is the sum of the counts of its parts |
| PhotoCheck.AllBase64Utf16 | src/controllers/AuthController.ts:532 | a string of alphabet characters has a JavaScript length equal to its number of characters |
| PhotoCheck.EmptyIsInvalid | src/controllers/AuthController.ts:531-535 | the empty string is not valid |
| PhotoCheck.PureBase64IsValid | src/controllers/AuthController.ts:529-535 | a non-empty string of alphabet characters only is valid |
| PhotoCheck.TrailingWhitespaceKeepsValid | src/controllers/AuthController.ts:531-535 | ten or more base64 characters followed by a line break or other whitespace still pass the 90% test |
| PhotoCheck.AppendBase64CharKeepsValid | src/controllers/AuthController.ts:531-535 | appending an alphabet character to a valid plain string keeps it above the 90% threshold |
| PhotoCheck.CheckPhoto | src/controllers/AuthController.ts:436-467 | a falsy image gives 400 "No image provided" and an invalid one 400 "Invalid image format"; an image is accepted exactly when it is truthy and valid; an accepted payload never contains whitespace; for a data URI it is the piece after the first `base64,` with whitespace removed, and for any other image it is the whole input with whitespace removed |
| AuthMiddleware.ExtractToken | src/middleware/authMiddleware.ts:24 | the token has no space, follows the `Bearer ` prefix directly, and ends at the next space or at the end of the header |
| AuthMiddleware.Authenticate | src/middleware/authMiddleware.ts:15-36 | `next` is called exactly when the header starts with `Bearer ` and verification of the extracted token succeeds, with `userId` set to the decoded id; every other path answers 401, with "No token provided" for a header that is missing or does not start with `Bearer ` and a single "Invalid or expired token" for every verification failure |
| AuthMiddleware.BearerTokenRoundTrip | src/middleware/authMiddleware.ts:18-24 | a header made of the prefix and a space-free token yields exactly that token |
| AuthMiddleware.DoubleSpaceYieldsEmptyToken | src/middleware/authMiddleware.ts:24 | `Bearer ` followed by another space yields the empty token |
| SessionProperties.BirthDateExample | src/controllers/AuthController.ts:72 | "15/03/1990" is rewritten to "1990-03-15" |
| SessionProperties.RegisterPreservesValidity | src/controllers/AuthController.ts:62-80 | registration keeps every database guarantee |
| SessionProperties.IssueTokensPreservesValidity | src/controllers/AuthController.ts:183-189 | storing a refresh token keeps every database guarantee |
| SessionProperties.GoogleAuthPreservesValidity | src/controllers/AuthController.ts:140-189 | Google sign-in keeps every database guarantee, including for a record without a password |
| SessionProperties.CompleteGoogleProfilePreservesValidity | src/controllers/AuthController.ts:248-273 | profile completion keeps every database guarantee although its update skips validation |
| SessionProperties.LoginPreservesValidity | src/controllers/AuthController.ts:316-318 | login keeps every database guarantee |
| SessionProperties.UpdateAboutPreservesValidity | src/controllers/AuthController.ts:357-361 | the unvalidated `about` update keeps every database guarantee |
| SessionProperties.DispatchPreservesValidity | src/models/userModel.ts:24-35 | every modelled handler keeps ids as keys, emails unique and every record schema-valid |
| SessionProperties.Run | src/models/userModel.ts:28 | after any sequence of requests from a valid collection, no two records share an email and every record is valid |
| SessionProperties.DispatchKeepsGoogleFlag | src/controllers/AuthController.ts:177-180 | no handler turns a Google account back into a non-Google one |
| SessionProperties.RegisterKeepsGoogleFlag | src/controllers/AuthController.ts:62-80 | registration never clears the Google flag of an existing record |
| SessionProperties.LoginKeepsGoogleFlag | src/controllers/AuthController.ts:316-318 | login never clears the Google flag |
| SessionProperties.GoogleAuthKeepsGoogleFlag | src/controllers/AuthController.ts:177-180 | Google sign-in only ever turns the flag on |
| SessionProperties.CompleteGoogleProfileKeepsGoogleFlag | src/controllers/AuthController.ts:248-259 | profile completion leaves the flag alone |
| SessionProperties.RunKeepsGoogleFlag | src/controllers/AuthController.ts:177-180 | over any sequence of requests without a deletion, `isGoogleUser` only goes from false to true |
| SessionProperties.IssuedRefreshTokenIsStored | src/controllers/AuthController.ts:316-318 | whenever any handler returns a refresh token, the record's single slot holds exactly that token |
| SessionProperties.LoginNonEnumeration | src/controllers/AuthController.ts:304-314 | an unknown email and a wrong password give the identical 401 and leave the collection unchanged |
| SessionProperties.LoginWithoutPasswordRevealsAccount | src/controllers/AuthController.ts:304-314 | a login without a password gets 500 "data and hash arguments required" for a known email but 401 for an unknown one, so the two can be told apart; neither changes the collection |
| SessionProperties.GoogleAccountCannotUsePassword | src/controllers/AuthController.ts:310-314 | an account with the empty digest cannot log in with a password, provided bcrypt never matches against "" |
| SessionProperties.LoginSucceedsWithRightPassword | src/controllers/AuthController.ts:316-318 | on a valid collection a matching password always logs in and changes only that record's refresh token |
| SessionProperties.RegisterTwiceIsRefused | src/controllers/AuthController.ts:56-60 | after a successful registration, registering the same email again gives 400 "Email already exists" and changes nothing |
| SessionProperties.NewGoogleDocumentIsValidButIncomplete | src/models/userModel.ts:29-43 | the record created for a new Google user validates without a password or birth date and needs completion |
| SessionProperties.GoogleAuthKnownEmailSucceeds | src/controllers/AuthController.ts:169-189 | on a valid collection a verified sign-in for a known email always succeeds for that account with `isNewUser` false and `needsCompletion` computed from the stored record |
| SessionProperties.GoogleAuthNewEmailIff | src/controllers/AuthController.ts:140-168 | a verified sign-in for an email no document holds succeeds exactly when a free id is drawn and both names are sent, and a success reports a new user |
| SessionProperties.GoogleAuthTrustsClientEmail | src/controllers/AuthController.ts:136 | a valid Google token whose verified email differs from the client-sent email signs the caller in to the account holding the client-sent email |
| SessionProperties.GoogleAuthCompleteProfileNeedsNothing | src/controllers/AuthController.ts:174 | a known account with birth date, gender and gender interest set is reported as not needing completion |
| SessionProperties.MergeProfileIdempotent | src/controllers/AuthController.ts:250-257 | merging the same request twice equals merging it once |
| SessionProperties.CompleteGoogleProfileSucceeds | src/controllers/AuthController.ts:239-273 | on a valid collection, completing a known id always succeeds and stores the merged profile with the 7d token |
| SessionProperties.CompleteGoogleProfileTwiceSameProfile | src/controllers/AuthController.ts:248-259 | sending the same completion twice leaves the same stored profile as sending it once |
| SessionProperties.CompletionWithAllFieldsIsComplete | src/controllers/AuthController.ts:251-253 | sending birth date, gender and gender interest leaves a stored profile that no longer needs completion |
| SessionProperties.CompletionFlagCanBeStale | src/controllers/AuthController.ts:290-291 | when neither the request nor the record has a gender, the response still says `needsCompletion: false` while the stored record needs completion |
| SessionProperties.DeletedAccountIsGone | src/controllers/AuthController.ts:548-553 | after a deletion, completing, updating or deleting the same id again gives 404 |
| SessionProperties.LoginTokenPassesMiddleware | src/middleware/authMiddleware.ts:24-30 | the access token returned by login, sent as `Bearer <token>`, lets the request through with `userId` set to the account, provided `jwt.verify` accepts it and it has no space |

## Left out

- `updateProfile`, `fetchProfile` and `getUserById` are left out. The first is an untyped `$set` of whatever the client sends. The other two are read-only projections.
- The `updateProfile` `$set` can also overwrite `isGoogleUser`, `email` or `refreshToken`, because it is not modelled. The flag and validity properties hold only for the modelled handlers.
- The Gemini call in `analyzeProfilePhoto` is a network call to an AI model. Only the checks and the payload cleanup before it are modelled.
- The `/refresh` route names `AuthController.refreshToken`, which the controller does not define. There is no refresh logic to model.
- Express wiring, CORS, the database connection and Firebase set-up are plumbing. `src/index.ts` is not part of this model.
- Date parsing is not modelled. `birthDate` is stored as the rewritten string. Mongoose would refuse to save a string that `new Date` cannot parse, and the model does not.
- `createdAt`, `updatedAt` and `lastTokenUpdate` are clock values and are left out.
- Logging is left out.
- Concurrency is not modelled: requests are handled one at a time. This drops the last-writer-wins race on `refreshToken` and the gap between `findById` and `findByIdAndUpdate`. That gap is why the "Failed to update user" branch (`src/controllers/AuthController.ts:261-264`) is unreachable here.
- The id loop runs over a finite sequence of random draws. When every draw collides, the response is `Pending`: the source would still be drawing. Termination in general is a matter of probability.
- Missing (undefined) `email` in `register` and `login`, and missing `userId` or `aboutContent` in `updateAbout`, are not modelled. Those fields are plain strings here. With undefined, the query or update semantics depend on Mongoose and driver settings.
- Request values that are neither strings nor arrays (numbers, objects) are not modelled.
- A missing `SECRET_KEY` makes `jwt.sign` throw. Here signing is a total function.
- bcrypt, jsonwebtoken, Google verification and the random source are function parameters. Their cryptographic behaviour is not modelled.
- The messages of 500 answers that echo `error.message` are fixed descriptive strings.
- Responses carry the whole record instead of the JSON subset each handler sends.
- PhotoCheck.IsValidBase64: uses the exact ratio `10 * valid > 9 * total` instead of the floating-point division the source compares with 0.9.
- SessionProperties.RunKeepsGoogleFlag: holds only for request sequences without a deletion. A deleted id can be drawn again for a new, non-Google account.

=== FILE: auth_controller.dfy ===
/** The request handlers of `AuthController` that change the account
    collection, each a pure function from the collection and one request to
    the response and the collection after it. The calls into bcrypt,
    jsonwebtoken, the Google OAuth client and the random byte source are the
    fields of `Env`, one value per request. */
module AuthController {
  import opened Js
  import opened Strings
  import opened UserModel
  import opened IdGenerator

  /** The cost factor passed to `bcrypt.hash`. */
  const BcryptCost := 10
  /** `expiresIn` of the access token. */
  const AccessLifetime := "1h"
  /** `expiresIn` of the refresh token. */
  const RefreshLifetime := "7d"

  /** The claims `verifyIdToken` extracts from a Google ID token. */
  datatype GooglePayload = GooglePayload(email: Option<string>, name: Option<string>, picture: Option<string>)

  /** The outside world as one request sees it. */
  datatype Env = Env(
    draws: seq<Draw>,                                  // crypto.randomBytes(4), draw by draw
    hash: (string, int) -> string,                     // bcrypt.hash(password, cost)
    compare: (string, string) -> bool,                 // bcrypt.compare(password, digest)
    sign: (string, string) -> string,                  // jwt.sign({ id }, SECRET_KEY, { expiresIn })
    verifyGoogle: string -> Option<GooglePayload>)     // googleClient.verifyIdToken, None when it throws

  /** What the handler sends back. `Pending` means the id-draw loop has not
      found a free id among the supplied draws, so nothing has been sent. */
  datatype Response =
    | Failure(status: int, message: string)
    | Registered(user: User, token: string)
    | Authenticated(user: User, accessToken: string, refreshToken: string,
                    isNewUser: bool, needsCompletion: bool)
    | LoggedIn(user: User, accessToken: string, refreshToken: string)
    | Deleted(userId: string)
    | AboutUpdated(user: User)
    | Pending

  datatype Step = Step(response: Response, store: Store)

  /** `birthDate.split("/").reverse().join("-")`: `dd/mm/yyyy` becomes
      `yyyy-mm-dd` before it reaches `new Date(...)`. */
  function RewriteBirthDate(s: string): (d: string)
    ensures '-' !in s ==> Split(d, "-") == Reverse(Split(s, "/"))
    ensures '/' !in s ==> d == s
  {
    SplitJoinReversed(s, '/', '-');
    SplitWithoutSeparator(s, '/');
    Join(Reverse(Split(s, "/")), "-")
  }

  // ---------------------------------------------------------------- register

  datatype RegisterRequest = RegisterRequest(
    firstName: Option<string>, lastName: Option<string>, avatar: Option<string>,
    birthDate: Option<string>, email: string, password: Option<string>,
    about: Option<string>, occupation: Option<string>, hobbies: Option<seq<string>>,
    genderInterest: Option<string>, gender: Option<string>)

  /** The TypeError `birthDate.split` throws when `birthDate` is undefined. */
  const SplitOfUndefined := "Cannot read properties of undefined (reading 'split')"

  /** The document `register` builds before saving it: the request fields,
      "" for a falsy `about`/`occupation`/`gender`/`genderInterest`, [] for
      missing `hobbies`, and the schema defaults for the rest. */
  function RegisteredDocument(id: string, req: RegisterRequest, digest: string, birthDate: string): (u: User)
    ensures u.id == id && u.email == Some(req.email) && u.password == Some(digest)
    ensures u.birthDate == Some(RewriteBirthDate(birthDate))
    ensures Truthy(req.about) ==> u.about == req.about
    ensures Truthy(req.occupation) ==> u.occupation == req.occupation
    ensures Truthy(req.gender) ==> u.gender == req.gender
    ensures Truthy(req.genderInterest) ==> u.genderInterest == req.genderInterest
    ensures !Truthy(req.about) ==> u.about == Some("")
    ensures !Truthy(req.occupation) ==> u.occupation == Some("")
    ensures !Truthy(req.gender) ==> u.gender == Some("")
    ensures !Truthy(req.genderInterest) ==> u.genderInterest == Some("")
    ensures u.firstName == req.firstName && u.lastName == req.lastName && u.avatar == req.avatar
    ensures u.hobbies == req.hobbies.GetOr([]) && u.dislike == []
    ensures u.fcmToken.None? && u.refreshToken.None? && !u.isGoogleUser
    ensures Valid(u) <==> id != "" && Truthy(req.firstName) && Truthy(req.lastName) && req.email != "" && digest != ""
  {
    NewDocument(id).(
      avatar := req.avatar,
      firstName := req.firstName,
      lastName := req.lastName,
      email := Some(req.email),
      password := Some(digest),
      birthDate := Some(RewriteBirthDate(birthDate)),
      about := Or(req.about, Some("")),
      occupation := Or(req.occupation, Some("")),
      gender := Or(req.gender, Some("")),
      genderInterest := Or(req.genderInterest, Some("")),
      hobbies := req.hobbies.GetOr([]))
  }

  /** `register`: credential sign-up. */
  function Register(store: Store, env: Env, req: RegisterRequest): (r: Step)
    ensures store.Keys <= r.store.Keys
    ensures !Truthy(req.password) ==> r == Step(Failure(400, "Password must be provided"), store)
    ensures Truthy(req.password) && EmailInUse(store, req.email) ==>
              r == Step(Failure(400, "Email already exists"), store)
    ensures !r.response.Registered? ==> r.store == store
    ensures r.response.Registered? <==>
              && Truthy(req.password)
              && !EmailInUse(store, req.email)
              && GenerateUniqueCustomId(store.Keys, env.draws).Some?
              && req.birthDate.Some?
              && Truthy(req.firstName) && Truthy(req.lastName) && req.email != ""
              && env.hash(req.password.value, BcryptCost) != ""
    ensures r.response.Registered? ==>
              var u := r.response.user;
              && u.id !in store && IsCustomId(u.id)
              && r.store == store[u.id := u]
              && u == RegisteredDocument(u.id, req, env.hash(req.password.value, BcryptCost), req.birthDate.value)
              && r.response.token == env.sign(u.id, AccessLifetime)
  {
    if !Truthy(req.password) then
      Step(Failure(400, "Password must be provided"), store)
    else if EmailInUse(store, req.email) then
      Step(Failure(400, "Email already exists"), store)
    else
      match GenerateUniqueCustomId(store.Keys, env.draws)
      case None => Step(Pending, store)
      case Some(id) =>
        var digest := env.hash(req.password.value, BcryptCost);
        if req.birthDate.None? then
          Step(Failure(500, SplitOfUndefined), store)
        else
          var u := RegisteredDocument(id, req, digest, req.birthDate.value);
          match Save(store, u, true)
          case SaveFailed(msg) => Step(Failure(500, msg), store)
          case Saved(s') => Step(Registered(u, env.sign(id, AccessLifetime)), s')
  }

  // ------------------------------------------------------ token issue & save

  /** Signs an access and a refresh token for `u`, stores the refresh token in
      its single slot and saves; a failed save answers 500 with `fail`. */
  function IssueTokens(s: Store, u: User, isNewUser: bool, needsCompletion: bool,
                       env: Env, fail: string): (r: Step)
    ensures s.Keys <= r.store.Keys
    ensures r.response.Authenticated? || r == Step(Failure(500, fail), s)
    ensures r.response.Authenticated? <==>
              Save(s, u.(refreshToken := Some(env.sign(u.id, RefreshLifetime))), false).Saved?
    ensures r.response.Authenticated? ==>
              && r.response.user == u.(refreshToken := Some(r.response.refreshToken))
              && r.store == s[u.id := r.response.user]
              && r.response.accessToken == env.sign(u.id, AccessLifetime)
              && r.response.refreshToken == env.sign(u.id, RefreshLifetime)
              && r.response.isNewUser == isNewUser
              && r.response.needsCompletion == needsCompletion
  {
    var access := env.sign(u.id, AccessLifetime);
    var refresh := env.sign(u.id, RefreshLifetime);
    var u' := u.(refreshToken := Some(refresh));
    match Save(s, u', false)
    case SaveFailed(_) => Step(Failure(500, fail), s)
    case Saved(s') => Step(Authenticated(u', access, refresh, isNewUser, needsCompletion), s')
  }

  // -------------------------------------------------------------- googleAuth

  datatype GoogleAuthRequest = GoogleAuthRequest(
    idToken: Option<string>, email: Option<string>,
    firstName: Option<string>, lastName: Option<string>, avatar: Option<string>)

  const GoogleAuthFailed := "Google authentication failed"

  /** The document `googleAuth` creates for an unknown email. */
  function GoogleDocument(id: string, req: GoogleAuthRequest, payload: GooglePayload): (u: User)
    ensures u.id == id && u.email == req.email
    ensures u.firstName == req.firstName && u.lastName == req.lastName
    ensures Truthy(req.avatar) ==> u.avatar == req.avatar
    ensures !Truthy(req.avatar) && Truthy(payload.picture) ==> u.avatar == payload.picture
    ensures !Truthy(req.avatar) && !Truthy(payload.picture) ==> u.avatar == Some("")
    ensures u.isGoogleUser && u.password == Some("") && u.birthDate.None?
    ensures u.gender == Some("") && u.genderInterest == Some("")
    ensures u.about == Some("") && u.occupation == Some("")
    ensures u.hobbies == [] && u.dislike == [] && u.fcmToken.None? && u.refreshToken.None?
    ensures Valid(u) <==> id != "" && Truthy(req.email) && Truthy(req.firstName) && Truthy(req.lastName)
    ensures NeedsCompletion(u)
  {
    NewDocument(id).(
      email := req.email,
      firstName := req.firstName,
      lastName := req.lastName,
      avatar := Or(req.avatar, Or(payload.picture, Some(""))),
      isGoogleUser := true,
      gender := Some(""),
      genderInterest := Some(""),
      about := Some(""),
      occupation := Some(""),
      hobbies := [],
      dislike := [],
      password := Some(""),
      fcmToken := None)
  }

  /** The branch of `googleAuth` for an email no document holds: a fresh
      id, a new Google document, then the tokens. */
  function SignInNewUser(store: Store, env: Env, req: GoogleAuthRequest, payload: GooglePayload): (r: Step)
    ensures store.Keys <= r.store.Keys
    ensures r.response.Authenticated? || r.response.Failure? || r.response.Pending?
    ensures !r.response.Authenticated? ==> r.store == store
    ensures Truthy(req.email) && !EmailInUse(store, req.email.value) ==>
              (r.response.Authenticated? <==>
                 GenerateUniqueCustomId(store.Keys, env.draws).Some? && Truthy(req.firstName) && Truthy(req.lastName))
    ensures r.response.Authenticated? ==>
              var u := r.response.user;
              && u.id !in store && IsCustomId(u.id)
              && u == GoogleDocument(u.id, req, payload).(refreshToken := Some(r.response.refreshToken))
              && r.store == store[u.id := u]
              && r.response.refreshToken == env.sign(u.id, RefreshLifetime)
              && r.response.accessToken == env.sign(u.id, AccessLifetime)
              && r.response.isNewUser && r.response.needsCompletion
  {
    match GenerateUniqueCustomId(store.Keys, env.draws)
    case None => Step(Pending, store)
    case Some(id) =>
      var u := GoogleDocument(id, req, payload);
      match Save(store, u, true)
      case SaveFailed(_) => Step(Failure(500, GoogleAuthFailed), store)
      case Saved(s1) =>
        TokensAfterInsert(store, u, env);
        IssueTokens(s1, u, true, true, env, GoogleAuthFailed)
  }

  /** Issuing tokens right after inserting a document always succeeds, and
      the collection ends up with just that document added. */
  lemma TokensAfterInsert(store: Store, u: User, env: Env)
    requires Save(store, u, true).Saved?
    ensures var r := IssueTokens(Save(store, u, true).store, u, true, true, env, GoogleAuthFailed);
            && r.response.Authenticated?
            && r.store == store[u.id := r.response.user]
  {
    var s1 := Save(store, u, true).store;
    SaveThenRefreshSucceeds(store, u, true, Some(env.sign(u.id, RefreshLifetime)));
    var r := IssueTokens(s1, u, true, true, env, GoogleAuthFailed);
    assert s1[u.id := r.response.user] == store[u.id := r.response.user];
  }

  /** The branch of `googleAuth` for the document `id` holding the email:
      the Google flag is set if it was not, then the tokens. */
  function SignInExistingUser(store: Store, env: Env, id: string): (r: Step)
    requires id in store
    ensures store.Keys <= r.store.Keys
    ensures r.response.Authenticated? || r.response.Failure?
    ensures !r.response.Authenticated? ==> r.store == store
    ensures r.response.Authenticated? ==>
              var u := r.response.user;
              && u.id == id
              && u == store[id].(isGoogleUser := true, refreshToken := Some(r.response.refreshToken))
              && r.store == store[id := u]
              && r.response.refreshToken == env.sign(id, RefreshLifetime)
              && r.response.accessToken == env.sign(id, AccessLifetime)
              && !r.response.isNewUser
              && r.response.needsCompletion == NeedsCompletion(store[id])
  {
    var user := store[id];
    var needsCompletion := NeedsCompletion(user);
    if !user.isGoogleUser then
      var promoted := user.(isGoogleUser := true);
      match Save(store, promoted, false)
      case SaveFailed(_) => Step(Failure(500, GoogleAuthFailed), store)
      case Saved(s1) =>
        assert !EmailTakenByOther(store, promoted);
        assert promoted.id == id;
        SaveThenRefreshSucceeds(store, promoted, false, Some(env.sign(id, RefreshLifetime)));
        var r := IssueTokens(s1, promoted, false, needsCompletion, env, GoogleAuthFailed);
        assert r.response.Authenticated? ==> s1[id := r.response.user] == store[id := r.response.user];
        r
    else
      var r := IssueTokens(store, user, false, needsCompletion, env, GoogleAuthFailed);
      assert r.response.Authenticated? ==> !EmailTakenByOther(store, r.response.user);
      r
  }

  /** `googleAuth`: federated sign-in. The account is looked up by the email
      the client sent, not by the email in the verified Google claims. */
  function GoogleAuth(store: Store, env: Env, req: GoogleAuthRequest): (r: Step)
    requires UniqueEmails(store)
    ensures store.Keys <= r.store.Keys
    ensures !Truthy(req.idToken) || !Truthy(req.email) ==>
              r == Step(Failure(400, "ID token and email are required"), store)
    ensures Truthy(req.idToken) && Truthy(req.email) && env.verifyGoogle(req.idToken.value).None? ==>
              r == Step(Failure(401, "Invalid Google token"), store)
    ensures !r.response.Authenticated? ==> r.store == store
    ensures r.response.Authenticated? ==>
              var u := r.response.user;
              var payload := env.verifyGoogle(req.idToken.value).value;
              && Truthy(req.idToken) && Truthy(req.email)
              && env.verifyGoogle(req.idToken.value).Some?
              && r.store == store[u.id := u]
              && u.email == req.email
              && u.isGoogleUser
              && u.refreshToken == Some(r.response.refreshToken)
              && r.response.refreshToken == env.sign(u.id, RefreshLifetime)
              && r.response.accessToken == env.sign(u.id, AccessLifetime)
              && (r.response.isNewUser <==> !EmailInUse(store, req.email.value))
              && (r.response.isNewUser ==>
                    && u.id !in store && IsCustomId(u.id)
                    && r.response.needsCompletion && NeedsCompletion(u)
                    && u.password == Some("") && u.gender == Some("") && u.genderInterest == Some("")
                    && u.birthDate.None? && u.hobbies == [] && u.dislike == [] && u.fcmToken.None?
                    && u.avatar == Or(req.avatar, Or(payload.picture, Some(""))))
              && (!r.response.isNewUser ==>
                    && u.id in store
                    && u == store[u.id].(isGoogleUser := true, refreshToken := u.refreshToken)
                    && r.response.needsCompletion == NeedsCompletion(store[u.id]))
    ensures r.response.Authenticated? || r.response.Failure? || r.response.Pending?
  {
    if !Truthy(req.idToken) || !Truthy(req.email) then
      Step(Failure(400, "ID token and email are required"), store)
    else
      match env.verifyGoogle(req.idToken.value)
      case None => Step(Failure(401, "Invalid Google token"), store)
      case Some(payload) =>
        match FindByEmail(store, req.email.value)
        case None => SignInNewUser(store, env, req, payload)
        case Some(id) => SignInExistingUser(store, env, id)
  }

  // --------------------------------------------------- completeGoogleProfile

  datatype CompleteProfileRequest = CompleteProfileRequest(
    userId: string,
    birthDate: Option<string>, gender: Option<string>, genderInterest: Option<string>,
    about: Option<string>, occupation: Option<string>, hobbies: Option<seq<string>>)

  /** The update document of `findByIdAndUpdate`: a truthy request field
      replaces the stored one, a falsy one keeps it. An array is always
      truthy, so any sent `hobbies` replaces the stored list. */
  function MergeProfile(user: User, req: CompleteProfileRequest): (u: User)
    ensures u.birthDate == (if Truthy(req.birthDate) then Some(RewriteBirthDate(req.birthDate.value)) else user.birthDate)
    ensures Truthy(req.gender) ==> u.gender == req.gender
    ensures !Truthy(req.gender) ==> u.gender == user.gender
    ensures Truthy(req.genderInterest) ==> u.genderInterest == req.genderInterest
    ensures !Truthy(req.genderInterest) ==> u.genderInterest == user.genderInterest
    ensures Truthy(req.about) ==> u.about == req.about
    ensures !Truthy(req.about) && Truthy(user.about) ==> u.about == user.about
    ensures !Truthy(req.about) && !Truthy(user.about) ==> u.about == Some("")
    ensures Truthy(req.occupation) ==> u.occupation == req.occupation
    ensures !Truthy(req.occupation) && Truthy(user.occupation) ==> u.occupation == user.occupation
    ensures !Truthy(req.occupation) && !Truthy(user.occupation) ==> u.occupation == Some("")
    ensures u.hobbies == (if req.hobbies.Some? then req.hobbies.value else user.hobbies)
    ensures u.(birthDate := user.birthDate, gender := user.gender, genderInterest := user.genderInterest,
               about := user.about, occupation := user.occupation, hobbies := user.hobbies) == user
  {
    user.(
      birthDate := if Truthy(req.birthDate) then Some(RewriteBirthDate(req.birthDate.value)) else user.birthDate,
      gender := Or(req.gender, user.gender),
      genderInterest := Or(req.genderInterest, user.genderInterest),
      about := Or(req.about, Or(user.about, Some(""))),
      occupation := Or(req.occupation, Or(user.occupation, Some(""))),
      hobbies := req.hobbies.GetOr(user.hobbies))
  }

  const CompleteProfileFailed := "Failed to complete profile"

  /** `completeGoogleProfile`: merge the onboarding fields, then issue a
      fresh token pair. The response always reports a complete, old user. */
  function CompleteGoogleProfile(store: Store, env: Env, req: CompleteProfileRequest): (r: Step)
    ensures store.Keys <= r.store.Keys
    ensures req.userId == "" ==> r == Step(Failure(400, "User ID is required"), store)
    ensures req.userId != "" && req.userId !in store ==> r == Step(Failure(404, "User not found"), store)
    ensures r.response.Authenticated? ==>
              var u := r.response.user;
              && req.userId in store
              && u == MergeProfile(store[req.userId], req).(refreshToken := Some(r.response.refreshToken))
              && u.refreshToken == Some(r.response.refreshToken)
              && r.response.refreshToken == env.sign(u.id, RefreshLifetime)
              && r.response.accessToken == env.sign(u.id, AccessLifetime)
              && !r.response.isNewUser && !r.response.needsCompletion
    ensures r.response.Authenticated? && KeyedById(store) ==> r.store == store[req.userId := r.response.user]
    ensures r.response.Failure? && req.userId != "" && req.userId in store ==>
              r.store == store[req.userId := MergeProfile(store[req.userId], req)]
    ensures r.response.Authenticated? || r.response.Failure?
  {
    if req.userId == "" then
      Step(Failure(400, "User ID is required"), store)
    else if req.userId !in store then
      Step(Failure(404, "User not found"), store)
    else
      var updated := MergeProfile(store[req.userId], req);
      IssueTokens(store[req.userId := updated], updated, false, false, env, CompleteProfileFailed)
  }

  // ------------------------------------------------------------------- login

  datatype LoginRequest = LoginRequest(email: string, password: Option<string>)

  const InvalidCredentials := "Invalid email or password"
  /** What `bcrypt.compare` rejects with when an argument is missing. */
  const BcryptMissingArgument := "data and hash arguments required"

  /** `login`: credential sign-in, rotating the single refresh-token slot. */
  function Login(store: Store, env: Env, req: LoginRequest): (r: Step)
    requires UniqueEmails(store)
    ensures store.Keys <= r.store.Keys
    ensures !EmailInUse(store, req.email) ==> r == Step(Failure(401, InvalidCredentials), store)
    ensures !r.response.LoggedIn? ==> r.store == store
    ensures r.response.LoggedIn? ==>
              var u := r.response.user;
              && u.id in store
              && store[u.id].email == Some(req.email)
              && req.password.Some? && store[u.id].password.Some?
              && env.compare(req.password.value, store[u.id].password.value)
              && u == store[u.id].(refreshToken := Some(r.response.refreshToken))
              && r.store == store[u.id := u]
              && r.response.refreshToken == env.sign(u.id, RefreshLifetime)
              && r.response.accessToken == env.sign(u.id, AccessLifetime)
    ensures r.response.LoggedIn? || r.response.Failure?
  {
    match FindByEmail(store, req.email)
    case None => Step(Failure(401, InvalidCredentials), store)
    case Some(id) =>
      var user := store[id];
      if req.password.None? || user.password.None? then
        Step(Failure(500, BcryptMissingArgument), store)
      else if !env.compare(req.password.value, user.password.value) then
        Step(Failure(401, InvalidCredentials), store)
      else
        var refresh := env.sign(user.id, RefreshLifetime);
        var u := user.(refreshToken := Some(refresh));
        match Save(store, u, false)
        case SaveFailed(msg) => Step(Failure(500, msg), store)
        case Saved(s') => Step(LoggedIn(u, env.sign(user.id, AccessLifetime), refresh), s')
  }

  // ------------------------------------------------- deleteUser, updateAbout

  /** `deleteUser`: `findByIdAndDelete`. */
  function DeleteUser(store: Store, userId: string): (r: Step)
    ensures userId !in r.store
    ensures forall k :: k in store && k != userId ==> k in r.store && r.store[k] == store[k]
    ensures r.store.Keys <= store.Keys
    ensures r.response == (if userId in store then Deleted(userId) else Failure(404, "User not found"))
  {
    if userId in store then Step(Deleted(userId), store - {userId})
    else Step(Failure(404, "User not found"), store)
  }

  /** `updateAbout`: `findOneAndUpdate` of the `about` path, without
      validation. */
  function UpdateAbout(store: Store, userId: string, aboutContent: string): (r: Step)
    ensures store.Keys <= r.store.Keys
    ensures userId !in store ==> r == Step(Failure(404, "User not found"), store)
    ensures userId in store ==>
              && r.response == AboutUpdated(store[userId].(about := Some(aboutContent)))
              && r.store == store[userId := r.response.user]
  {
    if userId !in store then Step(Failure(404, "User not found"), store)
    else
      var updated := store[userId].(about := Some(aboutContent));
      Step(AboutUpdated(updated), store[userId := updated])
  }
}

=== FILE: auth_middleware.dfy ===
/** `authMiddleware`: the bearer-token gate in front of the protected routes.
    `jwt.verify` is the `verify` parameter, returning the decoded payload or
    `None` for every failure (bad signature, malformed token, expiry). */
module AuthMiddleware {
  import opened Js
  import opened Strings

  const BearerPrefix := "Bearer "

  /** The decoded payload; `id` is unset when the payload carries none. */
  datatype Decoded = Decoded(id: Option<string>)

  /** Exactly one of the two things the middleware does on any path: call
      `next()` with `req.userId` set, or answer 401 and stop. */
  datatype Verdict = Next(userId: Option<string>) | Unauthorized(status: int, message: string)

  /** `authHeader.split(' ')[1]`: the text after the first space up to the
      next space, which for a `Bearer ` header is what follows the prefix. */
  function ExtractToken(header: string): (token: string)
    requires StartsWith(header, BearerPrefix)
    ensures !Contains(token, " ")
    ensures StartsWith(header[|BearerPrefix|..], token)
    ensures |BearerPrefix| + |token| < |header| ==> header[|BearerPrefix| + |token|] == ' '
  {
    var rest := header[|BearerPrefix|..];
    assert header == "Bearer" + " " + rest;
    assert OccursAt(header, " ", 6);
    assert forall j :: 0 <= j < 6 ==> !OccursAt(header, " ", j) by {
      forall j | 0 <= j < 6
        ensures !OccursAt(header, " ", j)
      {
        assert header[j..j + 1][0] == header[j] == BearerPrefix[j];
      }
    }
    assert IndexOf(header, " ") == 6;
    assert header[..6] == "Bearer";
    assert header[6 + 1..] == rest;
    var tail := Split(rest, " ");
    assert Split(header, " ") == ["Bearer"] + tail;
    FirstPieceEndsAtSpace(rest);
    tail[0]
  }

  /** The first piece of a split on a space is a prefix of the input that is
      followed by a space or by the end of the input. */
  lemma FirstPieceEndsAtSpace(s: string)
    ensures StartsWith(s, Split(s, " ")[0])
    ensures |Split(s, " ")[0]| < |s| ==> s[|Split(s, " ")[0]|] == ' '
  {
    var i := IndexOf(s, " ");
    if i >= 0 {
      assert OccursAt(s, " ", i);
      assert s[i..i + 1][0] == s[i];
    }
  }

  /** The whole middleware. */
  function Authenticate(header: Option<string>, verify: string -> Option<Decoded>): (v: Verdict)
    ensures v.Next? <==>
              && header.Some? && StartsWith(header.value, BearerPrefix)
              && verify(ExtractToken(header.value)).Some?
    ensures v.Next? ==> v.userId == verify(ExtractToken(header.value)).value.id
    ensures v.Unauthorized? ==> v.status == 401
    ensures !(header.Some? && StartsWith(header.value, BearerPrefix)) ==> v == Unauthorized(401, "No token provided")
    ensures header.Some? && StartsWith(header.value, BearerPrefix) && v.Unauthorized? ==>
              v.message == "Invalid or expired token"
  {
    if header.None? || header.value == "" || !StartsWith(header.value, BearerPrefix) then
      Unauthorized(401, "No token provided")
    else
      match verify(ExtractToken(header.value))
      case Some(decoded) => Next(decoded.id)
      case None => Unauthorized(401, "Invalid or expired token")
  }

  /** A header of the prefix followed by a space-free token yields exactly
      that token. */
  lemma BearerTokenRoundTrip(token: string)
    requires ' ' !in token
    ensures StartsWith(BearerPrefix + token, BearerPrefix)
    ensures ExtractToken(BearerPrefix + token) == token
  {
    var h := BearerPrefix + token;
    assert h[|BearerPrefix|..] == token;
    var t := ExtractToken(h);
    assert StartsWith(token, t);
    assert forall k :: 0 <= k < |token| ==> h[|BearerPrefix| + k] == token[k];
  }

  /** A second space after `Bearer` leaves the token empty. */
  lemma DoubleSpaceYieldsEmptyToken(rest: string)
    ensures StartsWith(BearerPrefix + " " + rest, BearerPrefix)
    ensures ExtractToken(BearerPrefix + " " + rest) == ""
  {
    var h := BearerPrefix + " " + rest;
    assert h[|BearerPrefix|..] == " " + rest;
    var t := ExtractToken(h);
    ContainsIff(t, " ");
    assert (" " + rest)[..1] == " ";
    assert |t| > 0 ==> OccursAt(t, " ", 0);
  }
}

=== FILE: hex.dfy ===
/** Node's `Buffer.toString('hex')`: two lower-case hexadecimal digits per
    byte, high nibble first, and its inverse. */
module Hex {
  import opened Js

  type Byte = x: int | 0 <= x < 256

  const Digits := "0123456789abcdef"

  predicate IsHexDigit(c: char) {
    '0' <= c <= '9' || 'a' <= c <= 'f'
  }

  /** The value of one lower-case hexadecimal digit. */
  function DigitValue(c: char): (v: int)
    requires IsHexDigit(c)
    ensures 0 <= v < 16 && Digits[v] == c
  {
    if c <= '9' then c as int - '0' as int else c as int - 'a' as int + 10
  }

  /** `bytes.toString('hex')`. */
  function ToHex(bytes: seq<Byte>): (s: string)
    ensures |s| == 2 * |bytes|
    ensures forall i :: 0 <= i < |s| ==> IsHexDigit(s[i])
  {
    if |bytes| == 0 then ""
    else [Digits[bytes[0] / 16], Digits[bytes[0] % 16]] + ToHex(bytes[1..])
  }

  /** Parses a string of lower-case digit pairs back into bytes. */
  function FromHex(s: string): Option<seq<Byte>>
    decreases |s|
  {
    if |s| == 0 then Some([])
    else if |s| == 1 || !IsHexDigit(s[0]) || !IsHexDigit(s[1]) then None
    else match FromHex(s[2..])
      case None => None
      case Some(rest) => Some([DigitValue(s[0]) * 16 + DigitValue(s[1])] + rest)
  }

  /** Reading back the digit of a nibble gives the nibble. */
  lemma DigitOfNibble(v: int)
    requires 0 <= v < 16
    ensures IsHexDigit(Digits[v]) && DigitValue(Digits[v]) == v
  {
    if v < 10 {
      assert Digits[v] as int == '0' as int + v;
    } else {
      assert Digits[v] as int == 'a' as int + v - 10;
    }
  }

  /** Parsing a leading digit pair. */
  lemma FromHexPair(d0: char, d1: char, rest: string)
    requires IsHexDigit(d0) && IsHexDigit(d1)
    ensures FromHex([d0, d1] + rest) ==
              if FromHex(rest).None? then None
              else Some([DigitValue(d0) * 16 + DigitValue(d1)] + FromHex(rest).value)
  {
    assert ([d0, d1] + rest)[2..] == rest;
  }

  /** Decoding the hex form gives the bytes back. */
  lemma {:induction false} FromHexToHex(bytes: seq<Byte>)
    ensures FromHex(ToHex(bytes)) == Some(bytes)
  {
    if |bytes| > 0 {
      var b := bytes[0];
      var tail := ToHex(bytes[1..]);
      assert ToHex(bytes) == [Digits[b / 16], Digits[b % 16]] + tail;
      DigitOfNibble(b / 16);
      DigitOfNibble(b % 16);
      FromHexPair(Digits[b / 16], Digits[b % 16], tail);
      FromHexToHex(bytes[1..]);
      assert [b] + bytes[1..] == bytes;
    }
  }

  /** Distinct byte strings have distinct hex forms. */
  lemma ToHexInjective(a: seq<Byte>, b: seq<Byte>)
    requires ToHex(a) == ToHex(b)
    ensures a == b
  {
    FromHexToHex(a);
    FromHexToHex(b);
  }
}

=== FILE: id_generator.dfy ===
/** `generateUniqueCustomId`: draw four random bytes, hex-encode them, and
    draw again while a document already has that `_id`. The random source is
    the finite sequence of draws it would return; when every draw collides
    the loop has not finished yet, which is reported as `None`. */
module IdGenerator {
  import opened Js
  import opened Hex

  /** Bytes per draw: `crypto.randomBytes(4)`. */
  const IdBytes := 4

  type Draw = b: seq<Byte> | |b| == IdBytes witness [0, 0, 0, 0]

  /** The shape of every generated id: eight lower-case hex digits. */
  predicate IsCustomId(id: string) {
    |id| == 2 * IdBytes && forall i :: 0 <= i < |id| ==> IsHexDigit(id[i])
  }

  /** The hex form of the first draw that is not a taken id. */
  function GenerateUniqueCustomId(taken: set<string>, draws: seq<Draw>): (r: Option<string>)
    ensures r.Some? <==> exists i :: 0 <= i < |draws| && ToHex(draws[i]) !in taken
    ensures r.Some? ==> r.value !in taken && IsCustomId(r.value)
    ensures r.Some? ==> exists i :: 0 <= i < |draws| && r.value == ToHex(draws[i])
                                  && forall j :: 0 <= j < i ==> ToHex(draws[j]) in taken
  {
    if |draws| == 0 then None
    else if ToHex(draws[0]) !in taken then Some(ToHex(draws[0]))
    else
      var r := GenerateUniqueCustomId(taken, draws[1..]);
      assert forall i :: 1 <= i < |draws| ==> draws[i] == draws[1..][i - 1];
      if r.Some? then
        var i :| 0 <= i < |draws[1..]| && r.value == ToHex(draws[1..][i])
                 && forall j :: 0 <= j < i ==> ToHex(draws[1..][j]) in taken;
        assert r.value == ToHex(draws[i + 1]);
        r
      else
        r
  }

  /** The do/while loop itself, drawing until `findById` finds nothing. */
  method DrawUntilFresh(taken: set<string>, draws: seq<Draw>) returns (r: Option<string>)
    ensures r.Some? ==> r.value !in taken && IsCustomId(r.value)
    ensures r.None? ==> forall i :: 0 <= i < |draws| ==> ToHex(draws[i]) in taken
    ensures r == GenerateUniqueCustomId(taken, draws)
  {
    var n := 0;
    while n < |draws|
      invariant 0 <= n <= |draws|
      invariant forall j :: 0 <= j < n ==> ToHex(draws[j]) in taken
      invariant GenerateUniqueCustomId(taken, draws) == GenerateUniqueCustomId(taken, draws[n..])
    {
      var customId := ToHex(draws[n]);
      if customId !in taken {
        return Some(customId);
      }
      assert draws[n..][1..] == draws[n + 1..];
      n := n + 1;
    }
    return None;
  }
}

=== FILE: js.dfy ===
/** JavaScript value notions the controllers rely on: a field that may be
    undefined or null, and the truthiness test behind `!x` and `x || y`. */
module Js {

  /** A request or document field: `None` stands for undefined/null. */
  datatype Option<+T> = None | Some(value: T) {

    /** The value if present, otherwise `default`. */
    function GetOr(default: T): T {
      match this
      case Some(v) => v
      case None => default
    }
  }

  /** JavaScript truthiness of an optional string: undefined, null and ""
      are falsy, every other string is truthy. */
  predicate Truthy(v: Option<string>) {
    v.Some? && v.value != ""
  }

  /** The expression `a || b` on optional strings. */
  function Or(a: Option<string>, b: Option<string>): Option<string> {
    if Truthy(a) then a else b
  }
}

=== FILE: photo_check.dfy ===
/** The string handling in front of the photo-feedback call: the lenient
    `isValidBase64` test and the cleanup that strips whitespace from the
    base64 payload before it would be sent on. */
module PhotoCheck {
  import opened Js
  import opened Strings

  const DataImagePrefix := "data:image"
  const Base64Marker := "base64,"

  /** The class `[A-Za-z0-9+/=]`. */
  predicate IsBase64Char(c: char) {
    ('A' <= c <= 'Z') || ('a' <= c <= 'z') || ('0' <= c <= '9') || c == '+' || c == '/' || c == '='
  }

  /** `str.replace(/[^A-Za-z0-9+/=]/g, '').length`. */
  function CountBase64Chars(s: string): (n: nat)
    ensures n <= |s|
    ensures n == |s| <==> forall i :: 0 <= i < |s| ==> IsBase64Char(s[i])
  {
    if |s| == 0 then 0
    else
      assert forall i :: 1 <= i < |s| ==> s[1..][i - 1] == s[i];
      (if IsBase64Char(s[0]) then 1 else 0) + CountBase64Chars(s[1..])
  }

  /** Counting distributes over concatenation. */
  lemma {:induction false} CountAppend(a: string, b: string)
    ensures CountBase64Chars(a + b) == CountBase64Chars(a) + CountBase64Chars(b)
    decreases |a|
  {
    if |a| > 0 {
      assert (a + b)[1..] == a[1..] + b;
      assert (a + b)[0] == a[0];
      CountAppend(a[1..], b);
    } else {
      assert a + b == b;
    }
  }

  /** `isValidBase64`: a data URI must mention `base64,`; anything else must
      have more than 90% of its UTF-16 units in the base64 alphabet, the
      float test `valid / total > 0.9` written as `10 * valid > 9 * total`
      (so the empty string, 0/0 in the source, is rejected too). */
  predicate IsValidBase64(s: string): (b: bool)
    ensures b ==> |s| > 0
    ensures StartsWith(s, DataImagePrefix) ==> (b <==> |Split(s, Base64Marker)| >= 2)
    ensures !StartsWith(s, DataImagePrefix) && (forall i :: 0 <= i < |s| ==> IsBase64Char(s[i])) ==>
              (b <==> |s| > 0)
    ensures !StartsWith(s, DataImagePrefix) ==>
              (b <==> Utf16Length(s) > 10 * (Utf16Length(s) - CountBase64Chars(s)))
  {
    ContainsIffSplitsInTwo(s, Base64Marker);
    AllBase64Utf16If(s);
    if StartsWith(s, DataImagePrefix) then Contains(s, Base64Marker)
    else 10 * CountBase64Chars(s) > 9 * Utf16Length(s)
  }

  /** The empty string is not valid base64. */
  lemma EmptyIsInvalid()
    ensures !IsValidBase64("")
  {
  }

  /** A non-empty string drawn only from the base64 alphabet is valid. */
  lemma {:induction false} PureBase64IsValid(s: string)
    requires |s| > 0
    requires forall i :: 0 <= i < |s| ==> IsBase64Char(s[i])
    ensures IsValidBase64(s)
  {
    AllBase64Utf16(s);
    assert !StartsWith(s, DataImagePrefix) by {
      if |DataImagePrefix| <= |s| {
        assert IsBase64Char(s[4]);
        assert !IsBase64Char(DataImagePrefix[4]);
      }
    }
  }

  /** The UTF-16 length of a string of base64 characters, for any string. */
  lemma AllBase64Utf16If(s: string)
    ensures (forall i :: 0 <= i < |s| ==> IsBase64Char(s[i])) ==> Utf16Length(s) == |s|
  {
    if forall i :: 0 <= i < |s| ==> IsBase64Char(s[i]) {
      AllBase64Utf16(s);
    }
  }

  /** Base64 characters are ASCII, one UTF-16 unit each. */
  lemma {:induction false} AllBase64Utf16(s: string)
    requires forall i :: 0 <= i < |s| ==> IsBase64Char(s[i])
    ensures Utf16Length(s) == |s|
  {
    if |s| > 0 {
      assert forall i :: 0 <= i < |s[1..]| ==> s[1..][i] == s[i + 1];
      AllBase64Utf16(s[1..]);
    }
  }

  /** Appending a base64 character to a valid plain string keeps it valid. */
  lemma AppendBase64CharKeepsValid(s: string, c: char)
    requires !StartsWith(s, DataImagePrefix) && !StartsWith(s + [c], DataImagePrefix)
    requires IsValidBase64(s)
    requires IsBase64Char(c)
    ensures IsValidBase64(s + [c])
  {
    CountAppend(s, [c]);
    Utf16LengthAppend(s, [c]);
    assert CountBase64Chars([c]) == 1;
    assert Utf16Length([c]) == 1;
  }

  /** A line break or other whitespace after at least ten base64 characters
      keeps a plain string above the threshold, which is why the payload is
      cleaned after the check. */
  lemma TrailingWhitespaceKeepsValid(s: string, c: char)
    requires |s| >= 10
    requires forall i :: 0 <= i < |s| ==> IsBase64Char(s[i])
    requires IsRegexSpace(c)
    ensures IsValidBase64(s + [c])
  {
    AllBase64Utf16(s);
    CountAppend(s, [c]);
    Utf16LengthAppend(s, [c]);
    assert CountBase64Chars([c]) == 0;
    assert Utf16Length([c]) == 1;
    assert !StartsWith(s + [c], DataImagePrefix) by {
      assert (s + [c])[4] == s[4];
      assert IsBase64Char(s[4]);
      assert !IsBase64Char(DataImagePrefix[4]);
    }
  }

  /** The payload `analyzeProfilePhoto` extracts: for a data URI the piece
      after the first `base64,` (up to any second one) with whitespace
      removed, if there is such a piece, else the input untouched; for
      anything else the whole input with whitespace removed. */
  function CleanBase64(s: string): (r: string)
    ensures !StartsWith(s, DataImagePrefix) || Contains(s, Base64Marker) ==>
              forall i :: 0 <= i < |r| ==> !IsRegexSpace(r[i])
    ensures StartsWith(s, DataImagePrefix) && !Contains(s, Base64Marker) ==> r == s
    ensures StartsWith(s, DataImagePrefix) && Contains(s, Base64Marker) ==>
              r == StripWhitespace(Split(s, Base64Marker)[1])
    ensures !StartsWith(s, DataImagePrefix) ==> r == StripWhitespace(s)
    ensures forall i :: 0 <= i < |r| ==> r[i] in s
    ensures (forall i :: 0 <= i < |s| ==> !IsRegexSpace(s[i]) && IsBase64Char(s[i])) ==> r == s
  {
    ContainsIffSplitsInTwo(s, Base64Marker);
    if StartsWith(s, DataImagePrefix) then
      DataUriIsNotBase64(s);
      var parts := Split(s, Base64Marker);
      if |parts| >= 2 then
        var r := StripWhitespace(parts[1]);
        StrippedCharsFrom(parts[1]);
        r
      else s
    else
      StrippedCharsFrom(s);
      StripWhitespace(s)
  }

  /** Every character left by whitespace removal comes from the input. */
  lemma StrippedCharsFrom(s: string)
    ensures forall i :: 0 <= i < |StripWhitespace(s)| ==> StripWhitespace(s)[i] in s
  {
    var r := StripWhitespace(s);
    forall i | 0 <= i < |r|
      ensures r[i] in s
    {
      assert r[i] in multiset(r);
    }
  }

  /** The `:` of a data URI is outside the base64 alphabet. */
  lemma DataUriIsNotBase64(s: string)
    requires StartsWith(s, DataImagePrefix)
    ensures !IsBase64Char(s[4])
  {
    assert s[4] == DataImagePrefix[4];
  }

  datatype PhotoResult = Rejected(status: int, message: string) | Accepted(payload: string)

  /** The checks of `analyzeProfilePhoto` before the feedback call. A
      string that passes `isValidBase64` always has a piece after the
      marker, so the accepted payload never carries whitespace. */
  function CheckPhoto(image: Option<string>): (r: PhotoResult)
    ensures r.Accepted? <==> Truthy(image) && IsValidBase64(image.value)
    ensures !Truthy(image) ==> r == Rejected(400, "No image provided")
    ensures Truthy(image) && !IsValidBase64(image.value) ==> r == Rejected(400, "Invalid image format")
    ensures r.Accepted? ==> forall i :: 0 <= i < |r.payload| ==> !IsRegexSpace(r.payload[i])
    ensures r.Accepted? && StartsWith(image.value, DataImagePrefix) ==>
              r.payload == StripWhitespace(Split(image.value, Base64Marker)[1])
    ensures r.Accepted? && !StartsWith(image.value, DataImagePrefix) ==>
              r.payload == StripWhitespace(image.value)
  {
    if !Truthy(image) then Rejected(400, "No image provided")
    else if !IsValidBase64(image.value) then Rejected(400, "Invalid image format")
    else
      ContainsIffSplitsInTwo(image.value, Base64Marker);
      Accepted(CleanBase64(image.value))
  }
}

=== FILE: session_properties.dfy ===
/** Properties of the account/session state machine that relate several
    handlers or several calls: the database guarantees every handler keeps,
    the one-way Google flag, the single refresh-token slot, non-enumeration on
    login, idempotent profile completion, the divergences the handlers have,
    and the hand-off of an issued access token to the middleware. */
module SessionProperties {
  import opened Js
  import opened Strings
  import opened UserModel
  import opened IdGenerator
  import opened AuthController
  import AuthMiddleware

  // ------------------------------------------------------------ birth date

  /** `dd/mm/yyyy` becomes `yyyy-mm-dd`. */
  lemma BirthDateExample()
    ensures RewriteBirthDate("15/03/1990") == "1990-03-15"
  {
    RewriteOfExample("15/03/1990");
  }

  /** The example with the date as a variable, so that the solver works from
      the contracts of `Split` and `Join` instead of unfolding them. */
  lemma RewriteOfExample(date: string)
    requires date == "15/03/1990"
    ensures RewriteBirthDate(date) == "1990-03-15"
  {
    ExampleSegments(date);
    assert Reverse(["15", "03", "1990"]) == ["1990", "03", "15"];
    assert Join(["1990", "03", "15"], "-") == "1990-03-15";
  }

  lemma ExampleSegments(date: string)
    requires date == "15/03/1990"
    ensures Split(date, "/") == ["15", "03", "1990"]
  {
    var parts := ["15", "03", "1990"];
    assert Join(parts, "/") == date;
    assert forall k :: 0 <= k < |parts| ==> '/' !in parts[k];
    SplitJoin(parts, '/');
  }

  // ------------------------------------------------------ the request loop

  /** One request reaching one of the modelled handlers. */
  datatype Call =
    | RegisterCall(env: Env, register: RegisterRequest)
    | GoogleAuthCall(env: Env, google: GoogleAuthRequest)
    | CompleteProfileCall(env: Env, complete: CompleteProfileRequest)
    | LoginCall(env: Env, login: LoginRequest)
    | DeleteUserCall(userId: string)
    | UpdateAboutCall(userId: string, aboutContent: string)

  function Dispatch(store: Store, call: Call): Step
    requires UniqueEmails(store)
  {
    match call
    case RegisterCall(env, req) => Register(store, env, req)
    case GoogleAuthCall(env, req) => GoogleAuth(store, env, req)
    case CompleteProfileCall(env, req) => CompleteGoogleProfile(store, env, req)
    case LoginCall(env, req) => Login(store, env, req)
    case DeleteUserCall(id) => DeleteUser(store, id)
    case UpdateAboutCall(id, about) => UpdateAbout(store, id, about)
  }

  lemma RegisterPreservesValidity(store: Store, env: Env, req: RegisterRequest)
    requires StoreValid(store)
    ensures StoreValid(Register(store, env, req).store)
  {
    var r := Register(store, env, req);
    if r.response.Registered? {
      var u := r.response.user;
      SavePreservesValidity(store, u, true);
    }
  }

  /** Token issue on a valid collection keeps it valid. */
  lemma IssueTokensPreservesValidity(s: Store, u: User, isNew: bool, needs: bool, env: Env, fail: string)
    requires StoreValid(s)
    ensures StoreValid(IssueTokens(s, u, isNew, needs, env, fail).store)
  {
    var u' := u.(refreshToken := Some(env.sign(u.id, RefreshLifetime)));
    if Save(s, u', false).Saved? {
      SavePreservesValidity(s, u', false);
    }
  }

  lemma GoogleAuthPreservesValidity(store: Store, env: Env, req: GoogleAuthRequest)
    requires StoreValid(store)
    ensures StoreValid(GoogleAuth(store, env, req).store)
  {
    if Truthy(req.idToken) && Truthy(req.email) && env.verifyGoogle(req.idToken.value).Some? {
      var payload := env.verifyGoogle(req.idToken.value).value;
      match FindByEmail(store, req.email.value)
      case None => {
        match GenerateUniqueCustomId(store.Keys, env.draws) {
          case None =>
          case Some(id) =>
            var u := GoogleDocument(id, req, payload);
            if Save(store, u, true).Saved? {
              SavePreservesValidity(store, u, true);
              IssueTokensPreservesValidity(Save(store, u, true).store, u, true, true, env, GoogleAuthFailed);
            }
        }
      }
      case Some(id) =>
        var user := store[id];
        if !user.isGoogleUser {
          var promoted := user.(isGoogleUser := true);
          if Save(store, promoted, false).Saved? {
            SavePreservesValidity(store, promoted, false);
            IssueTokensPreservesValidity(Save(store, promoted, false).store, promoted, false,
                                         NeedsCompletion(user), env, GoogleAuthFailed);
          }
        } else {
          IssueTokensPreservesValidity(store, user, false, NeedsCompletion(user), env, GoogleAuthFailed);
        }
    }
  }

  lemma CompleteGoogleProfilePreservesValidity(store: Store, env: Env, req: CompleteProfileRequest)
    requires StoreValid(store)
    ensures StoreValid(CompleteGoogleProfile(store, env, req).store)
  {
    if req.userId != "" && req.userId in store {
      var updated := MergeProfile(store[req.userId], req);
      var s1 := store[req.userId := updated];
      assert Valid(updated);
      assert s1 == Save(store, updated, false).store;
      SavePreservesValidity(store, updated, false);
      IssueTokensPreservesValidity(s1, updated, false, false, env, CompleteProfileFailed);
    }
  }

  lemma LoginPreservesValidity(store: Store, env: Env, req: LoginRequest)
    requires StoreValid(store)
    ensures StoreValid(Login(store, env, req).store)
  {
    var r := Login(store, env, req);
    if r.response.LoggedIn? {
      SavePreservesValidity(store, r.response.user, false);
    }
  }

  lemma UpdateAboutPreservesValidity(store: Store, userId: string, aboutContent: string)
    requires StoreValid(store)
    ensures StoreValid(UpdateAbout(store, userId, aboutContent).store)
  {
    if userId in store {
      var u := store[userId].(about := Some(aboutContent));
      assert Save(store, u, false).Saved?;
      SavePreservesValidity(store, u, false);
    }
  }

  /** Every modelled handler keeps every database guarantee: ids are keys,
      emails are unique, and every record passes schema validation. */
  lemma DispatchPreservesValidity(store: Store, call: Call)
    requires StoreValid(store)
    ensures StoreValid(Dispatch(store, call).store)
  {
    match call
    case RegisterCall(env, req) => RegisterPreservesValidity(store, env, req);
    case GoogleAuthCall(env, req) => GoogleAuthPreservesValidity(store, env, req);
    case CompleteProfileCall(env, req) => CompleteGoogleProfilePreservesValidity(store, env, req);
    case LoginCall(env, req) => LoginPreservesValidity(store, env, req);
    case DeleteUserCall(id) =>
    case UpdateAboutCall(id, about) => UpdateAboutPreservesValidity(store, id, about);
  }

  /** The collection after handling `calls` one after the other. */
  function Run(store: Store, calls: seq<Call>): (s: Store)
    requires StoreValid(store)
    ensures StoreValid(s)
    decreases |calls|
  {
    if |calls| == 0 then store
    else
      DispatchPreservesValidity(store, calls[0]);
      Run(Dispatch(store, calls[0]).store, calls[1..])
  }

  // ---------------------------------------------------- the Google flag

  /** No record that was a Google account stops being one. */
  predicate GoogleFlagKept(s: Store, s': Store) {
    forall k :: k in s && k in s' && s[k].isGoogleUser ==> s'[k].isGoogleUser
  }

  /** Every modelled handler only ever turns `isGoogleUser` on. */
  lemma DispatchKeepsGoogleFlag(store: Store, call: Call)
    requires StoreValid(store)
    ensures GoogleFlagKept(store, Dispatch(store, call).store)
  {
    match call
    case RegisterCall(env, req) => RegisterKeepsGoogleFlag(store, env, req);
    case GoogleAuthCall(env, req) => GoogleAuthKeepsGoogleFlag(store, env, req);
    case CompleteProfileCall(env, req) => CompleteGoogleProfileKeepsGoogleFlag(store, env, req);
    case LoginCall(env, req) => LoginKeepsGoogleFlag(store, env, req);
    case DeleteUserCall(id) =>
    case UpdateAboutCall(id, about) =>
  }

  lemma RegisterKeepsGoogleFlag(store: Store, env: Env, req: RegisterRequest)
    ensures GoogleFlagKept(store, Register(store, env, req).store)
  {
  }

  lemma LoginKeepsGoogleFlag(store: Store, env: Env, req: LoginRequest)
    requires UniqueEmails(store)
    ensures GoogleFlagKept(store, Login(store, env, req).store)
  {
  }

  lemma GoogleAuthKeepsGoogleFlag(store: Store, env: Env, req: GoogleAuthRequest)
    requires StoreValid(store)
    ensures GoogleFlagKept(store, GoogleAuth(store, env, req).store)
  {
    var r := GoogleAuth(store, env, req);
    if r.response.Failure? && Truthy(req.idToken) && Truthy(req.email) && env.verifyGoogle(req.idToken.value).Some? {
      match FindByEmail(store, req.email.value)
      case None =>
      case Some(id) =>
        var user := store[id];
        if !user.isGoogleUser {
          var promoted := user.(isGoogleUser := true);
          ResaveSucceeds(store, promoted);
        }
    }
  }

  lemma CompleteGoogleProfileKeepsGoogleFlag(store: Store, env: Env, req: CompleteProfileRequest)
    requires StoreValid(store)
    ensures GoogleFlagKept(store, CompleteGoogleProfile(store, env, req).store)
  {
    if req.userId != "" && req.userId in store {
      CompleteGoogleProfileSucceeds(store, env, req);
    }
  }

  /** Over any sequence of requests without a deletion the Google flag only
      goes from false to true. (A deleted id may be drawn again later for a
      new, non-Google account.) */
  lemma {:induction false} RunKeepsGoogleFlag(store: Store, calls: seq<Call>)
    requires StoreValid(store)
    requires forall i :: 0 <= i < |calls| ==> !calls[i].DeleteUserCall?
    ensures GoogleFlagKept(store, Run(store, calls))
    decreases |calls|
  {
    if |calls| > 0 {
      var s1 := Dispatch(store, calls[0]).store;
      DispatchPreservesValidity(store, calls[0]);
      DispatchKeepsGoogleFlag(store, calls[0]);
      assert forall i :: 0 <= i < |calls[1..]| ==> calls[1..][i] == calls[i + 1];
      RunKeepsGoogleFlag(s1, calls[1..]);
      assert Run(store, calls) == Run(s1, calls[1..]);
      assert store.Keys <= s1.Keys;
      forall k | k in store && k in Run(store, calls) && store[k].isGoogleUser
        ensures Run(store, calls)[k].isGoogleUser
      {
        assert k in s1 && s1[k].isGoogleUser;
      }
    }
  }

  // ------------------------------------------------- the refresh-token slot

  /** Whenever a handler hands out a refresh token, the record's single slot
      holds exactly that token afterwards. */
  lemma IssuedRefreshTokenIsStored(store: Store, call: Call)
    requires StoreValid(store)
    ensures var r := Dispatch(store, call);
            (r.response.Authenticated? || r.response.LoggedIn?) ==>
              r.response.user.id in r.store
              && r.store[r.response.user.id].refreshToken == Some(r.response.refreshToken)
  {
  }

  // ----------------------------------------------------------------- login

  /** An unknown email and a wrong password get the same 401 and leave the
      collection as it was, so a caller cannot tell them apart. */
  lemma LoginNonEnumeration(store: Store, env: Env, unknown: LoginRequest, wrong: LoginRequest, id: string)
    requires UniqueEmails(store)
    requires !EmailInUse(store, unknown.email)
    requires id in store && store[id].email == Some(wrong.email)
    requires wrong.password.Some? && store[id].password.Some?
    requires !env.compare(wrong.password.value, store[id].password.value)
    ensures Login(store, env, unknown) == Step(Failure(401, InvalidCredentials), store)
    ensures Login(store, env, wrong) == Login(store, env, unknown)
  {
    assert FindByEmail(store, wrong.email) == Some(id);
  }

  /** A login request without a password does tell accounts apart:
      `bcrypt.compare` rejects the missing argument for a known email, which
      the catch answers with 500, while an unknown email gets the usual 401. */
  lemma LoginWithoutPasswordRevealsAccount(store: Store, env: Env, known: LoginRequest,
                                           unknown: LoginRequest, id: string)
    requires UniqueEmails(store)
    requires id in store && store[id].email == Some(known.email) && known.password.None?
    requires !EmailInUse(store, unknown.email)
    ensures Login(store, env, known) == Step(Failure(500, BcryptMissingArgument), store)
    ensures Login(store, env, unknown) == Step(Failure(401, InvalidCredentials), store)
    ensures Login(store, env, known).response != Login(store, env, unknown).response
  {
    assert FindByEmail(store, known.email) == Some(id);
  }

  /** A Google account created by `googleAuth` has the empty digest; as long
      as bcrypt never matches a password against "", it cannot log in with
      a password. */
  lemma GoogleAccountCannotUsePassword(store: Store, env: Env, req: LoginRequest, id: string)
    requires UniqueEmails(store)
    requires id in store && store[id].email == Some(req.email) && store[id].password == Some("")
    requires forall p :: !env.compare(p, "")
    ensures Login(store, env, req).response.Failure?
    ensures Login(store, env, req).store == store
  {
    assert FindByEmail(store, req.email) == Some(id);
  }

  /** Login on a valid collection with the right password always succeeds,
      overwriting only the refresh-token slot. */
  lemma LoginSucceedsWithRightPassword(store: Store, env: Env, req: LoginRequest, id: string)
    requires StoreValid(store)
    requires id in store && store[id].email == Some(req.email)
    requires req.password.Some? && store[id].password.Some?
    requires env.compare(req.password.value, store[id].password.value)
    ensures var r := Login(store, env, req);
            && r.response.LoggedIn?
            && r.store == store[id := store[id].(refreshToken := Some(env.sign(id, RefreshLifetime)))]
  {
    assert FindByEmail(store, req.email) == Some(id);
    ResaveSucceeds(store, store[id].(refreshToken := Some(env.sign(id, RefreshLifetime))));
  }

  // -------------------------------------------------------------- register

  /** Once an email is registered, registering it again is refused and
      changes nothing. */
  lemma RegisterTwiceIsRefused(store: Store, env1: Env, env2: Env, first: RegisterRequest, second: RegisterRequest)
    requires Register(store, env1, first).response.Registered?
    requires second.email == first.email && Truthy(second.password)
    ensures var s1 := Register(store, env1, first).store;
            Register(s1, env2, second) == Step(Failure(400, "Email already exists"), s1)
  {
    var r := Register(store, env1, first);
    var u := r.response.user;
    assert r.store[u.id].email == Some(second.email);
  }

  // ------------------------------------------------------------ googleAuth

  /** The record `googleAuth` creates passes schema validation without a
      password or birth date, and is reported as needing completion. */
  lemma NewGoogleDocumentIsValidButIncomplete(id: string, req: GoogleAuthRequest, payload: GooglePayload)
    requires id != ""
    requires Truthy(req.email) && Truthy(req.firstName) && Truthy(req.lastName)
    ensures Valid(GoogleDocument(id, req, payload))
    ensures NeedsCompletion(GoogleDocument(id, req, payload))
    ensures GoogleDocument(id, req, payload).password == Some("")
  {
  }

  /** On a valid collection, a verified sign-in for a known email always
      succeeds and never reports a new user. */
  lemma GoogleAuthKnownEmailSucceeds(store: Store, env: Env, req: GoogleAuthRequest, id: string)
    requires StoreValid(store)
    requires Truthy(req.idToken) && Truthy(req.email) && env.verifyGoogle(req.idToken.value).Some?
    requires id in store && store[id].email == req.email
    ensures var r := GoogleAuth(store, env, req);
            && r.response.Authenticated?
            && r.response.user.id == id
            && !r.response.isNewUser
            && r.response.needsCompletion == NeedsCompletion(store[id])
  {
    assert FindByEmail(store, req.email.value) == Some(id);
    var user := store[id];
    if !user.isGoogleUser {
      var promoted := user.(isGoogleUser := true);
      ResaveSucceeds(store, promoted);
      SavePreservesValidity(store, promoted, false);
      var s1 := Save(store, promoted, false).store;
      ResaveSucceeds(s1, promoted.(refreshToken := Some(env.sign(id, RefreshLifetime))));
    } else {
      ResaveSucceeds(store, user.(refreshToken := Some(env.sign(id, RefreshLifetime))));
    }
  }

  /** A verified sign-in for an email no document holds creates the account
      exactly when a free id is drawn and both names are sent. */
  lemma GoogleAuthNewEmailIff(store: Store, env: Env, req: GoogleAuthRequest)
    requires UniqueEmails(store)
    requires Truthy(req.idToken) && Truthy(req.email) && env.verifyGoogle(req.idToken.value).Some?
    requires !EmailInUse(store, req.email.value)
    ensures var r := GoogleAuth(store, env, req);
            r.response.Authenticated? <==>
              GenerateUniqueCustomId(store.Keys, env.draws).Some? && Truthy(req.firstName) && Truthy(req.lastName)
    ensures GoogleAuth(store, env, req).response.Authenticated? ==>
              GoogleAuth(store, env, req).response.isNewUser
  {
    assert FindByEmail(store, req.email.value).None?;
  }

  /** The account is chosen by the email the client sent: a valid Google
      token whose verified email is some other address still signs the
      caller in to the account holding the client-supplied email. */
  lemma GoogleAuthTrustsClientEmail(store: Store, env: Env, req: GoogleAuthRequest, id: string)
    requires StoreValid(store)
    requires Truthy(req.idToken) && Truthy(req.email)
    requires env.verifyGoogle(req.idToken.value).Some?
    requires env.verifyGoogle(req.idToken.value).value.email != req.email
    requires id in store && store[id].email == req.email
    ensures var r := GoogleAuth(store, env, req);
            && r.response.Authenticated?
            && r.response.user.id == id
            && r.response.user.email != env.verifyGoogle(req.idToken.value).value.email
            && r.response.accessToken == env.sign(id, AccessLifetime)
  {
    GoogleAuthKnownEmailSucceeds(store, env, req, id);
  }

  /** A known account whose birth date, gender and gender interest are all
      set is reported as not needing completion. */
  lemma GoogleAuthCompleteProfileNeedsNothing(store: Store, env: Env, req: GoogleAuthRequest, id: string)
    requires StoreValid(store)
    requires Truthy(req.idToken) && Truthy(req.email) && env.verifyGoogle(req.idToken.value).Some?
    requires id in store && store[id].email == req.email
    requires store[id].birthDate.Some? && Truthy(store[id].gender) && Truthy(store[id].genderInterest)
    ensures GoogleAuth(store, env, req).response.Authenticated?
    ensures !GoogleAuth(store, env, req).response.needsCompletion
  {
    GoogleAuthKnownEmailSucceeds(store, env, req, id);
  }

  // ------------------------------------------------- completeGoogleProfile

  /** The profile paths `completeGoogleProfile` writes. */
  function ProfileOf(u: User): (Option<string>, Option<string>, Option<string>, Option<string>, Option<string>, seq<string>) {
    (u.birthDate, u.gender, u.genderInterest, u.about, u.occupation, u.hobbies)
  }

  /** Merging the same request twice is the same as merging it once. */
  lemma MergeProfileIdempotent(user: User, req: CompleteProfileRequest)
    ensures MergeProfile(MergeProfile(user, req), req) == MergeProfile(user, req)
  {
  }

  /** On a valid collection, completion of a known account always succeeds
      and stores the merged profile with the returned refresh token. */
  lemma CompleteGoogleProfileSucceeds(store: Store, env: Env, req: CompleteProfileRequest)
    requires StoreValid(store)
    requires req.userId != "" && req.userId in store
    ensures var r := CompleteGoogleProfile(store, env, req);
            && r.response.Authenticated?
            && r.store == store[req.userId := MergeProfile(store[req.userId], req).(
                 refreshToken := Some(env.sign(req.userId, RefreshLifetime)))]
  {
    var updated := MergeProfile(store[req.userId], req);
    var s1 := store[req.userId := updated];
    assert s1 == Save(store, updated, false).store;
    SavePreservesValidity(store, updated, false);
    ResaveSucceeds(s1, updated.(refreshToken := Some(env.sign(req.userId, RefreshLifetime))));
  }

  /** Sending the same completion twice leaves the same stored profile as
      sending it once. */
  lemma CompleteGoogleProfileTwiceSameProfile(store: Store, env1: Env, env2: Env, req: CompleteProfileRequest)
    requires StoreValid(store)
    requires req.userId != "" && req.userId in store
    ensures var s1 := CompleteGoogleProfile(store, env1, req).store;
            StoreValid(s1) && req.userId in s1
            && var s2 := CompleteGoogleProfile(s1, env2, req).store;
               req.userId in s2 && ProfileOf(s2[req.userId]) == ProfileOf(s1[req.userId])
  {
    CompleteGoogleProfileSucceeds(store, env1, req);
    CompleteGoogleProfilePreservesValidity(store, env1, req);
    var s1 := CompleteGoogleProfile(store, env1, req).store;
    CompleteGoogleProfileSucceeds(s1, env2, req);
    MergeProfileIdempotent(store[req.userId], req);
  }

  /** Sending all three onboarding fields completes the stored profile. */
  lemma CompletionWithAllFieldsIsComplete(store: Store, env: Env, req: CompleteProfileRequest)
    requires StoreValid(store)
    requires req.userId != "" && req.userId in store
    requires Truthy(req.birthDate) && Truthy(req.gender) && Truthy(req.genderInterest)
    ensures var r := CompleteGoogleProfile(store, env, req);
            req.userId in r.store && !NeedsCompletion(r.store[req.userId])
  {
    CompleteGoogleProfileSucceeds(store, env, req);
  }

  /** The response says no completion is needed even when the stored profile
      still lacks its gender. */
  lemma CompletionFlagCanBeStale(store: Store, env: Env, req: CompleteProfileRequest)
    requires StoreValid(store)
    requires req.userId != "" && req.userId in store
    requires !Truthy(req.gender) && !Truthy(store[req.userId].gender)
    ensures var r := CompleteGoogleProfile(store, env, req);
            && r.response.Authenticated? && !r.response.needsCompletion
            && req.userId in r.store && NeedsCompletion(r.store[req.userId])
  {
    CompleteGoogleProfileSucceeds(store, env, req);
  }

  // ------------------------------------------------------------ deleteUser

  /** Deletion is terminal: afterwards the id is unknown to every handler
      that looks it up. */
  lemma DeletedAccountIsGone(store: Store, env: Env, req: CompleteProfileRequest, about: string)
    requires req.userId != "" && req.userId in store
    ensures var s := DeleteUser(store, req.userId).store;
            && CompleteGoogleProfile(s, env, req).response == Failure(404, "User not found")
            && UpdateAbout(s, req.userId, about).response == Failure(404, "User not found")
            && DeleteUser(s, req.userId).response == Failure(404, "User not found")
  {
  }

  // ----------------------------------------------------- token to middleware

  /** The access token `login` returns, sent back as `Bearer <token>`, lets
      the request through with `userId` set to the account, provided
      `jwt.verify` accepts the token it just signed and the token has no
      space (a JWT never has one). */
  lemma LoginTokenPassesMiddleware(store: Store, env: Env, req: LoginRequest,
                                   verify: string -> Option<AuthMiddleware.Decoded>)
    requires UniqueEmails(store)
    requires Login(store, env, req).response.LoggedIn?
    requires var r := Login(store, env, req).response;
             && ' ' !in r.accessToken
             && verify(r.accessToken) == Some(AuthMiddleware.Decoded(Some(r.user.id)))
    ensures var r := Login(store, env, req).response;
            AuthMiddleware.Authenticate(Some(AuthMiddleware.BearerPrefix + r.accessToken), verify)
              == AuthMiddleware.Next(Some(r.user.id))
  {
    var r := Login(store, env, req).response;
    AuthMiddleware.BearerTokenRoundTrip(r.accessToken);
  }
}

=== FILE: strings.dfy ===
/** The JavaScript string operations the controllers and the middleware use:
    `startsWith`, `indexOf`/`includes`, `split` with a string separator,
    `join`, array `reverse`, whitespace removal by `/[\s\r\n]+/g` and the
    UTF-16 `length`. */
module Strings {

  /** `s.startsWith(prefix)`. */
  predicate StartsWith(s: string, prefix: string) {
    prefix <= s
  }

  /** `sep` occurs in `s` starting at index `i`. */
  predicate OccursAt(s: string, sep: string, i: int) {
    0 <= i && i + |sep| <= |s| && s[i..i + |sep|] == sep
  }

  /** `s.indexOf(sep, from)`: the first occurrence at or after `from`, or -1. */
  function IndexOfFrom(s: string, sep: string, from: nat): (r: int)
    requires from <= |s|
    ensures r == -1 || (from <= r && OccursAt(s, sep, r))
    ensures forall i :: from <= i && (r == -1 || i < r) ==> !OccursAt(s, sep, i)
    decreases |s| - from
  {
    if from + |sep| > |s| then -1
    else if s[from..from + |sep|] == sep then from
    else IndexOfFrom(s, sep, from + 1)
  }

  /** `s.indexOf(sep)`. */
  function IndexOf(s: string, sep: string): int {
    IndexOfFrom(s, sep, 0)
  }

  /** `s.includes(sep)`. */
  predicate Contains(s: string, sep: string) {
    IndexOf(s, sep) >= 0
  }

  /** `includes` holds exactly when some position holds an occurrence. */
  lemma ContainsIff(s: string, sep: string)
    ensures Contains(s, sep) <==> exists i :: OccursAt(s, sep, i)
  {
    if exists i :: OccursAt(s, sep, i) {
      var i :| OccursAt(s, sep, i);
      assert 0 <= i;
    }
  }

  /** A prefix that ends before the first occurrence holds no occurrence. */
  lemma NoOccurrenceInPrefix(s: string, sep: string, n: nat)
    requires |sep| > 0
    requires n <= |s|
    requires forall j :: 0 <= j < n ==> !OccursAt(s, sep, j)
    ensures !Contains(s[..n], sep)
  {
    var t := s[..n];
    forall j | 0 <= j && j + |sep| <= n
      ensures OccursAt(t, sep, j) == OccursAt(s, sep, j)
    {
      assert t[j..j + |sep|] == s[j..j + |sep|];
    }
  }

  /** Every character of a suffix or prefix comes from the whole string. */
  lemma SliceChars(s: string, i: nat, j: nat)
    requires i <= j <= |s|
    ensures forall c :: c in s[i..j] ==> c in s
  {
    forall c | c in s[i..j]
      ensures c in s
    {
      var k :| 0 <= k < j - i && s[i..j][k] == c;
      assert s[i + k] == c;
    }
  }

  /** `s.split(sep)` for a non-empty separator: the pieces between
      successive non-overlapping occurrences, scanned left to right. */
  function Split(s: string, sep: string): (parts: seq<string>)
    requires |sep| > 0
    ensures |parts| >= 1
    ensures forall k :: 0 <= k < |parts| ==> !Contains(parts[k], sep)
    ensures forall k, c :: 0 <= k < |parts| && c in parts[k] ==> c in s
    decreases |s|
  {
    var i := IndexOf(s, sep);
    if i < 0 then
      [s]
    else
      NoOccurrenceInPrefix(s, sep, i);
      SliceChars(s, 0, i);
      SliceChars(s, i + |sep|, |s|);
      assert s[..i] == s[0..i];
      assert s[i + |sep|..] == s[i + |sep|..|s|];
      [s[..i]] + Split(s[i + |sep|..], sep)
  }

  /** `parts.join(sep)`; the empty array joins to "". */
  function Join(parts: seq<string>, sep: string): string {
    if |parts| == 0 then ""
    else if |parts| == 1 then parts[0]
    else parts[0] + sep + Join(parts[1..], sep)
  }

  /** Array `reverse`. */
  function Reverse<T>(xs: seq<T>): (r: seq<T>)
    ensures |r| == |xs|
    ensures forall i :: 0 <= i < |xs| ==> r[i] == xs[|xs| - 1 - i]
  {
    if |xs| == 0 then [] else Reverse(xs[1..]) + [xs[0]]
  }

  /** Splitting and joining again on the same separator restores the input. */
  lemma {:induction false} JoinSplit(s: string, sep: string)
    requires |sep| > 0
    ensures Join(Split(s, sep), sep) == s
    decreases |s|
  {
    var i := IndexOf(s, sep);
    if i >= 0 {
      var rest := s[i + |sep|..];
      var tail := Split(rest, sep);
      JoinSplit(rest, sep);
      assert Split(s, sep) == [s[..i]] + tail;
      assert ([s[..i]] + tail)[1..] == tail;
      assert Join(Split(s, sep), sep) == s[..i] + sep + Join(tail, sep);
      assert OccursAt(s, sep, i);
      assert s == s[..i] + s[i..i + |sep|] + rest;
    }
  }

  /** A string without the character `c` has no occurrence of `[c]`. */
  lemma NotContainsChar(x: string, c: char)
    requires c !in x
    ensures !Contains(x, [c])
  {
    forall i | 0 <= i < |x|
      ensures !OccursAt(x, [c], i)
    {
      assert x[i..i + 1][0] == x[i];
    }
  }

  /** In `p + [c] + rest` with `c` not in `p`, the first `c` is the one
      right after `p`. */
  lemma FirstOccurrenceAfterPrefix(p: string, c: char, rest: string)
    requires c !in p
    ensures IndexOf(p + [c] + rest, [c]) == |p|
  {
    var s := p + [c] + rest;
    assert s[|p|..|p| + 1] == [c];
    forall j | 0 <= j < |p|
      ensures !OccursAt(s, [c], j)
    {
      assert s[j..j + 1][0] == s[j] == p[j];
    }
    assert OccursAt(s, [c], |p|);
    var r := IndexOf(s, [c]);
    assert r != -1 && r <= |p|;
  }

  /** Joining pieces free of a one-character separator and splitting on it
      gives the pieces back. */
  lemma {:induction false} SplitJoin(parts: seq<string>, c: char)
    requires |parts| >= 1
    requires forall k :: 0 <= k < |parts| ==> c !in parts[k]
    ensures Split(Join(parts, [c]), [c]) == parts
    decreases |parts|
  {
    if |parts| == 1 {
      NotContainsChar(parts[0], c);
    } else {
      var p := parts[0];
      var rest := Join(parts[1..], [c]);
      var s := Join(parts, [c]);
      assert s == p + [c] + rest;
      FirstOccurrenceAfterPrefix(p, c, rest);
      assert s[..|p|] == p;
      assert s[|p| + 1..] == rest;
      SplitJoin(parts[1..], c);
      assert Split(s, [c]) == [p] + parts[1..];
    }
  }

  /** A string without the one-character separator splits into itself. */
  lemma SplitWithoutSeparator(s: string, c: char)
    ensures c !in s ==> Split(s, [c]) == [s]
  {
    if c !in s {
      NotContainsChar(s, c);
    }
  }

  /** Joining the reversed pieces of a split on a separator `b` that the
      input does not contain, and splitting the result on `b` again, gives
      the reversed pieces back. */
  lemma SplitJoinReversed(s: string, a: char, b: char)
    ensures b !in s ==> Split(Join(Reverse(Split(s, [a])), [b]), [b]) == Reverse(Split(s, [a]))
  {
    if b !in s {
      var parts := Split(s, [a]);
      var rev := Reverse(parts);
      forall k | 0 <= k < |rev|
        ensures b !in rev[k]
      {
        var j := |parts| - 1 - k;
        assert rev[k] == parts[j];
        assert forall c :: c in parts[j] ==> c in s;
      }
      SplitJoin(rev, b);
    }
  }

  /** A string contains a separator exactly when splitting on it yields at
      least two pieces. */
  lemma ContainsIffSplitsInTwo(s: string, sep: string)
    requires |sep| > 0
    ensures Contains(s, sep) <==> |Split(s, sep)| >= 2
  {
  }

  /** Membership in the class `[\s\r\n]` of a JavaScript regular expression:
      the ECMAScript WhiteSpace and LineTerminator code points. */
  predicate IsRegexSpace(c: char) {
    var n := c as int;
    || n == 0x09 || n == 0x0A || n == 0x0B || n == 0x0C || n == 0x0D
    || n == 0x20 || n == 0xA0 || n == 0x1680 || (0x2000 <= n <= 0x200A)
    || n == 0x2028 || n == 0x2029 || n == 0x202F || n == 0x205F
    || n == 0x3000 || n == 0xFEFF
  }

  /** `s.replace(/[\s\r\n]+/g, '')`: every whitespace character removed, the
      rest kept in order. */
  function StripWhitespace(s: string): (r: string)
    ensures forall i :: 0 <= i < |r| ==> !IsRegexSpace(r[i])
    ensures (forall i :: 0 <= i < |s| ==> !IsRegexSpace(s[i])) ==> r == s
    ensures multiset(r) <= multiset(s)
  {
    if |s| == 0 then ""
    else
      assert s == [s[0]] + s[1..];
      (if IsRegexSpace(s[0]) then "" else [s[0]]) + StripWhitespace(s[1..])
  }

  /** One step of the whitespace removal. */
  lemma StripStep(s: string)
    requires |s| > 0
    ensures StripWhitespace(s) == (if IsRegexSpace(s[0]) then "" else [s[0]]) + StripWhitespace(s[1..])
  {
  }

  /** Stripping distributes over concatenation. */
  lemma {:induction false} StripAppend(a: string, b: string)
    ensures StripWhitespace(a + b) == StripWhitespace(a) + StripWhitespace(b)
    decreases |a|
  {
    if |a| > 0 {
      var head := if IsRegexSpace(a[0]) then "" else [a[0]];
      assert (a + b)[1..] == a[1..] + b;
      assert (a + b)[0] == a[0];
      StripStep(a + b);
      StripStep(a);
      StripAppend(a[1..], b);
      assert head + (StripWhitespace(a[1..]) + StripWhitespace(b))
          == (head + StripWhitespace(a[1..])) + StripWhitespace(b);
    } else {
      assert a + b == b;
    }
  }

  /** JavaScript `length`: UTF-16 code units, two for a code point above
      U+FFFF. */
  function Utf16Length(s: string): (n: nat)
    ensures |s| <= n <= 2 * |s|
    ensures |s| == 1 ==> n == (if s[0] as int >= 0x1_0000 then 2 else 1)
  {
    if |s| == 0 then 0
    else (if s[0] as int >= 0x1_0000 then 2 else 1) + Utf16Length(s[1..])
  }

  /** The UTF-16 length of a concatenation is the sum of the lengths. */
  lemma {:induction false} Utf16LengthAppend(a: string, b: string)
    ensures Utf16Length(a + b) == Utf16Length(a) + Utf16Length(b)
    decreases |a|
  {
    if |a| > 0 {
      assert (a + b)[1..] == a[1..] + b;
      assert (a + b)[0] == a[0];
      Utf16LengthAppend(a[1..], b);
    } else {
      assert a + b == b;
    }
  }
}

=== FILE: user_model.dfy ===
/** The `User` document of the Mongoose schema and the collection that holds
    it: field shapes, the schema's required/conditional/default rules, the
    unique index on `email`, and what a `save()` does to the collection. */
module UserModel {
  import opened Js

  /** One account document. Optional schema paths are `Option`s (`None` is
      an unset path); `birthDate` holds the string handed to `new Date(...)`,
      date parsing being outside the model. `hobbies` and `dislike` are
      arrays with a default, so they are always present. */
  datatype User = User(
    id: string,
    avatar: Option<string>,
    firstName: Option<string>,
    lastName: Option<string>,
    email: Option<string>,
    password: Option<string>,
    birthDate: Option<string>,
    about: Option<string>,
    occupation: Option<string>,
    gender: Option<string>,
    genderInterest: Option<string>,
    hobbies: seq<string>,
    dislike: seq<string>,
    refreshToken: Option<string>,
    fcmToken: Option<string>,
    isGoogleUser: bool)

  /** The collection, keyed by `_id`. */
  type Store = map<string, User>

  /** A freshly constructed document before any request field is applied:
      every path with a schema default holds it, every other path is unset. */
  function NewDocument(id: string): (d: User)
    ensures d.id == id && d.hobbies == [] && d.dislike == []
    ensures d.fcmToken.None? && d.refreshToken.None? && !d.isGoogleUser
    ensures !Valid(d)
  {
    User(id, None, None, None, None, None, None, None, None, None, None,
         [], [], None, None, false)
  }

  /** Schema validation. A `required` String path rejects an unset value and
      the empty string; `password` is required exactly when the document is
      not a Google account; every other path is optional. */
  predicate Valid(u: User): (b: bool)
    ensures b ==> u.id != "" && Truthy(u.firstName) && Truthy(u.lastName) && Truthy(u.email)
    ensures !u.isGoogleUser && !Truthy(u.password) ==> !b
    ensures !u.isGoogleUser ==>
              (b <==> u.id != "" && Truthy(u.firstName) && Truthy(u.lastName) && Truthy(u.email)
                      && Truthy(u.password))
    ensures u.isGoogleUser ==>
              (b <==> u.id != "" && Truthy(u.firstName) && Truthy(u.lastName) && Truthy(u.email))
  {
    && u.id != ""
    && Truthy(u.firstName)
    && Truthy(u.lastName)
    && Truthy(u.email)
    && (!u.isGoogleUser ==> Truthy(u.password))
  }

  /** The derived completeness test of the Google onboarding flow: a stored
      Date is always truthy, the two strings must be non-empty. */
  predicate NeedsCompletion(u: User): (b: bool)
    ensures u.birthDate.None? || !Truthy(u.gender) || !Truthy(u.genderInterest) ==> b
    ensures u.birthDate.Some? && Truthy(u.gender) && Truthy(u.genderInterest) ==> !b
  {
    u.birthDate.None? || !Truthy(u.gender) || !Truthy(u.genderInterest)
  }

  /** `findOne({ email })` would find a document. */
  predicate EmailInUse(store: Store, email: string) {
    exists k :: k in store && store[k].email == Some(email)
  }

  /** Some document other than `u` already holds `u`'s email. */
  predicate EmailTakenByOther(store: Store, u: User) {
    exists k :: k in store && k != u.id && store[k].email == u.email
  }

  predicate KeyedById(store: Store) {
    forall k :: k in store ==> store[k].id == k
  }

  /** The unique index on `email`. */
  predicate UniqueEmails(store: Store) {
    forall a, b :: a in store && b in store && a != b ==> store[a].email != store[b].email
  }

  /** What the database guarantees of every collection it holds. */
  predicate StoreValid(store: Store) {
    && KeyedById(store)
    && UniqueEmails(store)
    && forall k :: k in store ==> Valid(store[k])
  }

  /** `findOne({ email })` under the unique index: the one document holding
      `email`, if any. */
  function FindByEmail(store: Store, email: string): (r: Option<string>)
    requires UniqueEmails(store)
    ensures r.None? <==> !EmailInUse(store, email)
    ensures r.Some? ==> r.value in store && store[r.value].email == Some(email)
  {
    if EmailInUse(store, email) then
      var k :| k in store && store[k].email == Some(email);
      Some(k)
    else
      None
  }

  datatype SaveResult = Saved(store: Store) | SaveFailed(message: string)

  const ValidationFailed := "User validation failed"
  const DuplicateKey := "E11000 duplicate key error"

  /** `doc.save()`: validation first, then the insert (`isNew`) or the
      replacement, which the unique indexes on `_id` and `email` may refuse. */
  function Save(store: Store, u: User, isNew: bool): (r: SaveResult)
    ensures r.Saved? <==> Valid(u) && !(isNew && u.id in store) && !EmailTakenByOther(store, u)
    ensures r.Saved? ==> r.store == store[u.id := u]
    ensures !Valid(u) ==> r == SaveFailed(ValidationFailed)
  {
    if !Valid(u) then SaveFailed(ValidationFailed)
    else if (isNew && u.id in store) || EmailTakenByOther(store, u) then SaveFailed(DuplicateKey)
    else Saved(store[u.id := u])
  }

  /** A successful save keeps every database guarantee. */
  lemma SavePreservesValidity(store: Store, u: User, isNew: bool)
    requires StoreValid(store)
    requires Save(store, u, isNew).Saved?
    ensures StoreValid(Save(store, u, isNew).store)
  {
    var s' := store[u.id := u];
    forall a, b | a in s' && b in s' && a != b
      ensures s'[a].email != s'[b].email
    {
      if a == u.id {
        assert !EmailTakenByOther(store, u) && b in store;
      } else if b == u.id {
        assert !EmailTakenByOther(store, u) && a in store;
      }
    }
  }

  /** After a successful save, saving the same document again with another
      refresh token is never refused. */
  lemma SaveThenRefreshSucceeds(store: Store, u: User, isNew: bool, token: Option<string>)
    requires Save(store, u, isNew).Saved?
    ensures Save(Save(store, u, isNew).store, u.(refreshToken := token), false).Saved?
  {
    var s1 := Save(store, u, isNew).store;
    var u' := u.(refreshToken := token);
    assert !EmailTakenByOther(s1, u') by {
      forall k | k in s1 && k != u'.id
        ensures s1[k].email != u'.email
      {
        assert k in store && s1[k] == store[k];
      }
    }
  }

  /** Saving a stored, valid document again with its email unchanged always
      succeeds. */
  lemma ResaveSucceeds(store: Store, u: User)
    requires StoreValid(store)
    requires u.id in store
    requires u.email == store[u.id].email
    requires Valid(u)
    ensures Save(store, u, false).Saved?
  {
  }
}
